=== FILE: README.md ===
# cleanobs annotation core, modelled in Dafny

`cleanobs` cleans tide-gauge observations. Each station sensor has an annotation record, a
`Transformation`. The record holds:

- the station identity (`provider`, `provider_id`, `sensor`);
- free `notes` and the `skip`/`wip` flags;
- a validity window `start`/`end`;
- three sorted, duplicate-free collections of points and intervals to mask: `date_ranges`,
  `timestamps` and `tsunamis`.

`transform` applies a record to a station's raw series. It clips the series to the window,
then copies the raw value into a flag column and blanks the `clean` column at every masked
instant. Records are stored as documents, one file per station key. The tide analysis of the
same station keeps its constituents in nested dictionaries, stored as lists and held in
memory as arrays.

The model:

| file | module | what it holds |
|---|---|---|
| `outcomes.dfy` | `Outcomes` | `Option`, `Result`, `Outcome` (a mutator that returned or raised), and the error kinds. |
| `text.dfy` | `Text` | ASCII `lower`, `count`, `split`/`join` on one separator and `rsplit(sep, 1)[0]`, with their round-trip lemmas. |
| `sorted_sets.dfy` | `SortedSets` | The `SortedSet` behind the three collections: a strictly increasing sequence under an order `lt`, with `add`, `update` and construction from a list. |
| `instants.dfy` | `Instants` | Instants are integer microseconds since 1970-01-01T00:00Z. Covers `ensure_utc`, the `UTC` field type, and a date parser for `YYYY`, `YYYY-MM` and `YYYY-MM-DD`. |
| `date_ranges.dfy` | `DateRanges` | `DateRange`: validation, the order `__lt__` and `from_tuple`. |
| `transformations.dfy` | `Transformations` | The record as a value (`Record`) and as the object the mutators change (`class Transformation`). Also construction with defaults, and the three `add_*` methods. |
| `documents.dfy` | `Documents` | The round-trip dump of a record as a document tree, and its validation back into a record. |
| `store.dfy` | `Store` | Record paths, `load_trans_from_path`, `load_trans` with its default record, `dump_trans`, and the ERA5 station id. |
| `mask.dfy` | `Mask` | `transform`: an imperative method over an array of rows, proved equal to a step-by-step specification whose columns are characterised row by row. |
| `constituents.dfy` | `Constituents` | `nd_format`/`list_format` as loops over the keys of a nested dictionary, the `weights` stripping, and the constituent file paths. |

How the source maps onto the model:

- Datetimes: a naive datetime is its wall-clock reading. An aware datetime is the reading plus
  an offset.
- Series and missing values: a raw series is a sequence of `(instant, value)` samples. NaN is
  `None`. Values are only copied, so their type is a type parameter.
- Directories: the directories the settings name are string parameters.
- File system: a map from the exact path string to content. Record documents, raw series indexes and
  constituent payloads each have their own map.
- Reads and writes: reading a file is a lookup in that map, and writing is a map update.
- Mutation: the record's scalar fields are `const`, because the source model is frozen. Its
  three collections are `var` sequences that `AddDateRange`, `AddTimestamps` and `AddTsunami`
  reassign.

Some behaviour of the code that the model keeps:

- The default dump path lower-cases only the provider (`cleanobs/_data.py:100`). `path`
  lower-cases nothing (`cleanobs/_models.py:96`). `load_trans` looks up the key as given
  (`cleanobs/_data.py:79`). `transform` without a record lower-cases the whole key
  (`cleanobs/_data.py:112`). `Store.DumpMissesKeyPath`, `Store.PathVersusDumpPath` and
  `Store.AttrsKeyFindsDump` state what follows from this on a case-sensitive file system.
- `load_trans` reads the raw series before it splits the key (`cleanobs/_data.py:83-84`).
  So a key with no raw series fails as a missing file even when it is malformed.
- `add_timestamps` is all-or-nothing. `SortedSet.update` collects the whole validated
  iterable before it changes anything, so an invalid element raises before any insertion.

## Model

| member | source | states |
|---|---|---|
| Instants.EnsureUtc | cleanobs/_models.py:17-22 | The result is tagged UTC. A naive value keeps its wall-clock reading. An aware value keeps its absolute instant. |
| Instants.Normalize | cleanobs/_models.py:25 | A naive datetime gives its reading and an aware one its absolute instant. Text is accepted exactly when the date parser accepts it, and then gives the parsed date read as UTC. Every failure is an invalid timestamp. |
| Instants.NormalizeUtcStamp | cleanobs/_models.py:25 | An instant read back as a naive or a UTC value is that same instant, so normalising is idempotent. |
| Instants.ShortFormsAgree | tests/test_models.py:17-19 | For any four-digit year from 0001 on, the year, the year with "-01", and the year with "-01-01" all normalise to midnight UTC on 1 January. |
| Instants.YearZeroRefused | cleanobs/_models.py:25 | "0000", "0000-01" and "0000-01-01" are refused as invalid timestamps: there is no year 0. |
| Instants.Year2010 | tests/test_models.py:14-20 | "2010", "2010-01", "2010-01-01" and a naive 2010-01-01T00:00 all give 2010-01-01T00:00Z. |
| Instants.Year2011 | tests/test_models.py:26-27 | "2011" and "2011-01-01" give 2011-01-01T00:00Z. |
| DateRanges.Validate | cleanobs/_models.py:55-58 | Accepted exactly when both ends normalise and start < end. The result holds the normalised ends. Equal or inverted ends raise a range inversion. A bad end raises an invalid timestamp. |
| DateRanges.InvertedRejected | cleanobs/_models.py:55-58 | Swapping the ends of an accepted range is rejected, and so is a range with the same start and end. |
| DateRanges.Less | cleanobs/_models.py:43-46 | `<` on ranges compares the starts, and the ends only when the starts are equal. A range is never below itself. |
| DateRanges.LessIsStrictTotalOrder | cleanobs/_models.py:43-46 | `<` on ranges, lexicographic on (start, end), is irreflexive, transitive and total. |
| DateRanges.FromTuple | cleanobs/_models.py:48-53 | A non-sequence is rejected, and so is a sequence whose length is not 2 (the length is reported). A sequence of exactly two items gives the validation of `start=tpl[0]`, `end=tpl[1]`: the range when it validates, its error otherwise. |
| DateRanges.FromTupleSpellings | tests/test_models.py:23-35 | The four spellings in the test (year, full date, naive, aware) all give the range 2010-01-01Z to 2011-01-01Z. |
| SortedSets.InsertSpec | cleanobs/_models.py:82 | `add` keeps the set strictly ascending and adds exactly the new element. The size grows by one exactly when the element was absent. |
| SortedSets.InsertPresent | cleanobs/_models.py:82 | Adding an element that is already in the set changes nothing. |
| SortedSets.InsertIdempotent | cleanobs/_models.py:82 | Adding the same element twice is adding it once. An `add` changes nothing exactly when the element is already present. |
| SortedSets.UnionSpec | cleanobs/_models.py:86 | `update` keeps the set strictly ascending and holds exactly the old elements and the new ones. |
| SortedSets.UnionIdempotent | cleanobs/_models.py:86 | Repeating an `update` with the same elements changes nothing. |
| SortedSets.FromListSpec | cleanobs/_models.py:72-74 | Building a sorted set from a list gives an ascending, duplicate-free sequence of exactly the list's elements. |
| SortedSets.Unique | cleanobs/_models.py:72-74 | Two ascending sequences with the same elements are equal, so a sorted set is determined by its elements. |
| SortedSets.FromListOfIncreasing | cleanobs/_models.py:72-74 | Building a sorted set from an ascending list gives that list back. |
| Transformations.ValidateInstants | cleanobs/_models.py:77 | Every element of the iterable is normalised in order. It fails exactly when one element does not validate, with an invalid timestamp. |
| Transformations.ValidateRanges | cleanobs/_models.py:72 | Every range is validated in order. It fails exactly when one range does not validate. |
| Transformations.Build | cleanobs/_models.py:61-74 | Construction succeeds exactly when start, end and every collection element validate. It fills the defaults `notes=""`, `skip=True`, `wip=True`, and each collection that is not given is empty. Each collection becomes ascending and duplicate-free with exactly the validated elements. Every range in it is valid. |
| Transformations.EmptyCollections | tests/test_models.py:46-62 | Empty collections and absent collections give the same record: empty sets with the default scalars. |
| Transformations.Transformation.constructor | cleanobs/_models.py:61-74 | The object holds exactly the given valid record. |
| Transformations.Transformation.AddDateRange | cleanobs/_models.py:80-82 | On a valid range, `date_ranges` becomes the old set plus the range (one larger exactly when it was new), and the call returns normally. On an invalid range, the error is raised and nothing changes. Only `date_ranges` may change, and the record stays valid. |
| Transformations.Transformation.AddTimestamps | cleanobs/_models.py:84-86 | When every element validates, `timestamps` becomes the union of the old set and the validated elements. When any element does not validate, an invalid timestamp is raised and `timestamps` is unchanged. No window check is made. |
| Transformations.Transformation.AddTsunami | cleanobs/_models.py:88-90 | As `AddDateRange`, for `tsunamis`. |
| Transformations.New | cleanobs/_models.py:61-74 | A fresh, valid object holding the built record, or the construction error. |
| Documents.Encode | cleanobs/_data.py:102 | The dump holds exactly the record's stored fields. The computed `path` is not among them. |
| Documents.DecodeInstant | cleanobs/_models.py:25 | A stored count is read as an aware UTC value, and text goes to the date parser. Anything else is a schema error for that field. |
| Documents.DecodeRange | cleanobs/_models.py:37-41 | A non-object, or an object missing `start` or `end`, is a schema error. Any other field is an extra input. An object with exactly `start` and `end` is accepted exactly when both read as instants, and then holds those two instants. |
| Documents.DecodeFields | cleanobs/_models.py:60-73 | A non-object is refused. A document with any field the record does not have is refused as an extra input. A document missing `provider`, `provider_id`, `sensor`, `start` or `end` is a schema error. An accepted document holds every required field, and each argument is read from its own field with that field's type: strings, booleans, instants, and arrays of ranges or instants. An optional field is absent from the arguments exactly when it is absent from the document. |
| Documents.Decode | cleanobs/_data.py:72 | Validation refuses non-objects, extra fields and missing required fields. Any error in reading the fields is the result. Otherwise the record is built as the constructor does. Every record it returns is valid. |
| Documents.RoundTrip | cleanobs/_data.py:72 | Validating the dump of any valid record gives back that record, with every collection in its order. |
| Documents.MinimalDocument | cleanobs/_models.py:67-74 | A document with only the required fields validates to the record with the default values and empty collections. |
| Transformations.TransPath | cleanobs/_data.py:79 | The record file of a key lies in the records directory, and its name is the key as given followed by `.json`. |
| Transformations.TransPathInjective | cleanobs/_data.py:79 | Two keys give the same record path exactly when they are the same key. |
| Transformations.Transformation.Path | cleanobs/_models.py:92-97 | The computed `path` lies in the records directory and is named `provider-provider_id-sensor.json`, with no change of case. |
| Store.DumpPath | cleanobs/_data.py:100 | The default dump file lies in the records directory and is named after the key with only the provider lower-cased. |
| Store.LoadTransFromPath | cleanobs/_data.py:69-73 | A missing file is a file-not-found error. Otherwise the result is the validation of the stored document, and always a valid record. |
| Store.DumpTrans | cleanobs/_data.py:95-103 | The dump is written to the given path, or else to the default path. No other file changes. |
| Store.DumpThenLoad | cleanobs/_data.py:99-102 | Loading from the path a record was dumped to gives the same record, for an explicit path and for the default one. |
| Store.DefaultRecord | cleanobs/_data.py:83-91 | A missing raw series is a file-not-found error. A key that does not split into three parts on "-" is refused with its part count, and an empty series is refused. Otherwise the result is a valid record with the key's three parts, the first and last instants of the series as its window, the default scalars and empty sets. |
| Store.KeyOfParts | cleanobs/_data.py:84 | A key with exactly two hyphens is its three split parts joined again by "-". |
| Store.LoadTrans | cleanobs/_data.py:76-92 | With a file for the key, the result is that file's validation, errors included. With no file, it is the default record. |
| Store.DumpThenLoadByKey | cleanobs/_data.py:79-100 | A record with a lower-case provider, dumped to its default path, is what `load_trans` of its key returns. |
| Store.DumpMissesKeyPath | cleanobs/_data.py:100 | When the provider is not lower case, the default dump path differs from the path `load_trans` reads for the record's key. |
| Store.PathVersusDumpPath | cleanobs/_models.py:92-97 | The computed `path` equals the default dump path exactly when the provider is lower case. |
| Store.StationDefault | cleanobs/_data.py:83-91 | For a key `provider-provider_id-sensor` with hyphen-free parts and a non-empty raw series, the default record has those three parts and the series' first and last instants as its window. |
| Store.DefaultForStation | tests/test_data.py:25-30 | For a key `provider-provider_id-sensor` with no file and a non-empty raw series, `load_trans` gives the default record with those three parts. |
| Store.HyphenInPartRejected | cleanobs/_data.py:84 | A sensor holding a hyphen makes the key split into more than three parts, so no default record is made. |
| Store.Era5Id | cleanobs/_data.py:54-59 | A key without exactly two hyphens is kept. A key with two hyphens gives the prefix before its last hyphen. |
| Store.Era5Path | cleanobs/_data.py:60 | The ERA5 file lies in the ERA5 directory and is named after the station's ERA5 id, followed by `.parquet`. |
| Store.Era5IdOfStation | cleanobs/_data.py:54-57 | The ERA5 id of `provider-provider_id-sensor` is `provider-provider_id`. |
| Store.AttrsKey | cleanobs/_data.py:112 | The lookup key is the lower-cased provider, provider id and sensor joined by "-", so it has no upper-case letter. |
| Store.AttrsKeyFindsDump | cleanobs/_data.py:112 | The lower-cased lookup finds what was dumped to the default path, whatever the provider's case, when the id and sensor are lower case. |
| Mask.Transform | cleanobs/_data.py:106-124 | The array-based transform gives exactly the step-by-step pipeline: clip, then timestamps, then each date range and each tsunami in order. |
| Mask.ApplyRanges | cleanobs/_data.py:118-123 | The loop over a collection of ranges leaves the frame as the ranges applied one after the other. |
| Mask.TransformStored | cleanobs/_data.py:110-112 | With no record given, the record comes from `load_trans` under the lower-cased attribute key. A failed load is the error, and otherwise the result is the pipeline. |
| Mask.ClipMember | cleanobs/_data.py:113 | A row is kept by the clip exactly when it is a row of the frame whose instant lies in [start, end], both bounds included. |
| Mask.MarkRangesSpec | cleanobs/_data.py:118-123 | After a collection of ranges, a row's flag column holds `raw` exactly when some range covers the row inclusively, and `clean` is blanked there. Instant, `raw` and the other columns are unchanged. |
| Mask.Columns | cleanobs/_data.py:109-123 | Row by row, each column follows its rule, starting from `clean` equal to `raw` and every flag missing. `timestamps` is `raw` exactly at listed instants. `date_ranges` and `tsunamis` are each `raw` exactly inside one of their ranges. `clean` is missing exactly where any of the three holds, and `raw` elsewhere. Instants and raw values are those of the clipped series. |
| Mask.Window | cleanobs/_data.py:113 | Every row of the result lies in the window, and every sample in the window is kept. |
| Mask.FlagsOverlap | cleanobs/_data.py:114-123 | An instant that is listed and also covered by a date range and by a tsunami is flagged in all three columns. The flags are not exclusive. |
| Mask.ClipSlice | cleanobs/_data.py:113 | On rows in time order, and for a window whose start is not after its end, the clip is one contiguous slice: the rows after those before `start`, up to the last row not after `end`. |
| Mask.SortedWindow | cleanobs/_data.py:113 | On a series in time order with a non-inverted window, the result is the samples at consecutive positions of the series, in order. |
| Constituents.NdValue | cleanobs/_detide.py:15-23 | The converted payload has no list left at any depth. A dictionary keeps its keys. |
| Constituents.ListValue | cleanobs/_detide.py:26-34 | The converted payload has no array left at any depth. A dictionary keeps its keys. |
| Constituents.NdFormat | cleanobs/_detide.py:15-23 | The loop over the keys, recursing into nested dictionaries, gives exactly the converted payload. |
| Constituents.ListFormat | cleanobs/_detide.py:26-34 | The loop over the keys, recursing into nested dictionaries, gives exactly the converted payload. |
| Constituents.NdAtPath | cleanobs/_detide.py:15-23 | Every position of the result holds what the input held there, converted. A list becomes an array of the same elements, a dictionary keeps its keys, and anything else is unchanged. No position appears or disappears. |
| Constituents.ListAtPath | cleanobs/_detide.py:26-34 | As `NdAtPath`, for arrays becoming lists. |
| Constituents.ListOfNd | cleanobs/_detide.py:45 | For a payload with no arrays, `list_format(nd_format(d)) == d`. |
| Constituents.NdOfList | cleanobs/_detide.py:62 | For a payload with no lists, `nd_format(list_format(d)) == d`. |
| Constituents.NdFixesNoLists | cleanobs/_detide.py:15-23 | A payload with no list left is unchanged by `nd_format`. |
| Constituents.NdIdempotent | cleanobs/_detide.py:15-23 | Applying `nd_format` twice is the same as applying it once. |
| Constituents.ConstituentsPath | cleanobs/_detide.py:44 | The constituents file lies in the constituents directory and is named after the lower-cased id, followed by `.json`. |
| Constituents.ConstituentsPathShared | cleanobs/_detide.py:44-60 | Two ids give the same constituents path exactly when they lower-case the same. |
| Constituents.StripWeights | cleanobs/_detide.py:61 | `weights` is absent afterwards and every other entry is kept. Removing an absent `weights` is no error. |
| Constituents.LoadConstituentsFromPath | cleanobs/_detide.py:49-51 | A missing file is a file-not-found error. Otherwise the result is the stored payload with its lists made arrays. |
| Constituents.LoadConstituents | cleanobs/_detide.py:43-46 | As `LoadConstituentsFromPath`, from the file named by the lower-cased id. |
| Constituents.Dumped | cleanobs/_detide.py:61-62 | The stored payload has no `weights` entry and no array. |
| Constituents.DumpConstituents | cleanobs/_detide.py:54-62 | The stored payload is written to the given path, or else to the lower-cased id's file. The caller's dictionary is left holding the stored payload. |
| Constituents.DumpThenLoad | cleanobs/_detide.py:43-62 | A payload holding no lists (as `nd_format` leaves it) dumped under one spelling of an id loads back under any spelling that lower-cases the same. It comes back without `weights`. |
| Text.SplitJoin | cleanobs/_data.py:84 | Joining hyphen-free parts with "-" and splitting again gives the parts back. |
| Text.RSplitHeadOf | cleanobs/_data.py:57 | `rsplit(sep, 1)[0]` of `a + sep + b`, with `b` free of the separator, is `a`. |
| Text.LowerFixpoint | cleanobs/_data.py:100 | Lower-casing leaves a string unchanged exactly when it has no upper-case letter. |

## Left out

- Timestamp parsing: only the forms `YYYY`, `YYYY-MM` and `YYYY-MM-DD` are modelled. Times of
  day, time-zone suffixes, week dates, epoch numbers and the rest of `pd.Timestamp` are library
  behaviour.
- Instants.ParseDate: the year range is that of a Python `datetime`, 0001 to 9999. The
  narrower range a pandas `Timestamp` can hold at nanosecond resolution (1677 to 2262) is not
  enforced, so an out-of-range year that pandas refuses is accepted here.
- Nanosecond precision: instants are whole microseconds. The `UTC` field holds a
  `pd.Timestamp`, which can carry nanoseconds, but the program's own JSON dump writes
  microseconds only, so microseconds are what a stored record keeps.
- Named time zones: an aware datetime carries a fixed offset. The offset rules of named zones
  are not modelled.
- Document encoding: the document tree stores an instant as its microsecond count, not as
  ISO-8601 text. The byte layout of the JSON (indentation, trailing newline, key order) is
  left out.
- Validation errors: pydantic's lax coercions (numbers or strings given for booleans, and
  similar) are left out. Where pydantic reports every error of a document, the model reports
  the first one.
- Letter case: `str.lower` is modelled on ASCII letters only. Other Unicode case mappings are
  left out.
- Aliasing: a record's collections and a constituent payload are values. The sharing of a
  nested dictionary between the caller and `nd_format`/`list_format`, which update it in place,
  is not modelled. What the caller's dictionary holds after `dump_constituents` is returned as
  `remaining`.
- Constituents.NdValue: a scalar keeps its own type when a list becomes an array. `np.array`
  gives the array one element type, so a mixed list changes: `["a", 1]` becomes strings,
  `[True, 2]` integers and `[1, 2.5]` floats. For such a list, "an array of the same
  elements" (`Constituents.NdAtPath`) and `Constituents.ListOfNd` do not hold in the program.
  The program's own payloads hold one type per list.
- Constituents.NdValue: a payload list is modelled as a flat list of scalars. Nested lists
  (which `np.array` makes a multi-dimensional array and `.tolist()` nests again), lists of
  dictionaries (an object array), and the error `np.array` raises on a ragged nested list are
  not modelled.
- File names: a path is its exact string, as on a case-sensitive file system. Case-insensitive
  file systems, where `IOC-….json` and `ioc-….json` name one file, and path normalisation
  (`.`, `..`, repeated `/`) are not modelled. `Store.DumpMissesKeyPath`,
  `Store.PathVersusDumpPath` and the path lemmas describe a case-sensitive file system.
- Dictionary key order: a payload is a map. The insertion order of its keys, and therefore the
  order of keys in a written file, is not modelled.
- Mask.Transform: `df[start:end]` is modelled as a filter on the window. On an index that is
  not in time order, pandas label slicing behaves differently or raises, and that is not
  modelled. On an ordered index the filter is the slice (`Mask.ClipSlice`).
- Mask.Transform: the guard `df.index.isin(trans.timestamps).any()` is left out. It only skips
  a step that would change no row.
- File I/O: `to_parquet`, `load_raw_from_path` and `load_raw` are modelled only through the
  raw series' time index, looked up by path. The parquet format and the attribute type
  conversions are left out.
- `load_era5`: only the station id and the file path are modelled. The wind direction and
  magnitude (`arctan2`, `sqrt`) are floating-point arithmetic.
- `calc_constituents` and `calc_surge` are calls into `utide`.
- Other modules: plotting and the UI (`cleanobs/_plots.py`), statistics (`cleanobs/_stats.py`)
  and environment-driven settings (`cleanobs/_settings.py`) are not part of this model.

=== FILE: constituents.dfy ===
/** Tidal constituents as stored: a nested dictionary whose leaves are scalars, lists or
    arrays. In memory the sequences are arrays; in a file they are lists. `nd_format` turns
    every list into an array, `list_format` every array into a list, at any depth of nesting. */
module Constituents {
  import opened Outcomes
  import opened Text

  datatype Scalar = Num(x: real) | Str(s: string) | Bool(b: bool) | Null

  datatype Val =
    | Dict(entries: map<string, Val>)
    | List(items: seq<Scalar>)
    | Arr(items: seq<Scalar>)
    | Leaf(scalar: Scalar)

  /** No list left, at any depth. */
  predicate NoLists(v: Val)
  {
    match v
    case Dict(m) => forall k :: k in m ==> NoLists(m[k])
    case List(_) => false
    case _ => true
  }

  /** No array left, at any depth. */
  predicate NoArrays(v: Val)
  {
    match v
    case Dict(m) => forall k :: k in m ==> NoArrays(m[k])
    case Arr(_) => false
    case _ => true
  }

  /** What `nd_format` makes of a value: a nested dictionary converted entry by entry, a list
      turned into an array of the same elements, anything else left as it is. */
  function NdValue(v: Val): (r: Val)
    ensures NoLists(r)
    ensures v.Dict? <==> r.Dict?
    ensures v.Dict? ==> r.entries.Keys == v.entries.Keys
  {
    match v
    case Dict(m) => Dict(map k | k in m :: NdValue(m[k]))
    case List(xs) => Arr(xs)
    case _ => v
  }

  /** What `list_format` makes of a value: the same, from arrays back to lists. */
  function ListValue(v: Val): (r: Val)
    ensures NoArrays(r)
    ensures v.Dict? <==> r.Dict?
    ensures v.Dict? ==> r.entries.Keys == v.entries.Keys
  {
    match v
    case Dict(m) => Dict(map k | k in m :: ListValue(m[k]))
    case Arr(xs) => List(xs)
    case _ => v
  }

  /** `nd_format(dct)`: each entry in turn is converted, a nested dictionary by a recursive
      call, a list by making an array of it; the keys stay the same. */
  method NdFormat(dct: map<string, Val>) returns (r: map<string, Val>)
    ensures Dict(r) == NdValue(Dict(dct))
    decreases Dict(dct)
  {
    r := dct;
    var pending := dct.Keys;
    while pending != {}
      invariant pending <= dct.Keys && r.Keys == dct.Keys
      invariant forall k :: k in dct && k !in pending ==> r[k] == NdValue(dct[k])
      invariant forall k :: k in pending ==> r[k] == dct[k]
      decreases pending
    {
      var key :| key in pending;
      match dct[key] {
        case Dict(inner) =>
          var converted := NdFormat(inner);
          r := r[key := Dict(converted)];
        case List(xs) =>
          r := r[key := Arr(xs)];
        case _ =>
      }
      pending := pending - {key};
    }
  }

  /** `list_format(dct)`: each entry in turn is converted, a nested dictionary by a recursive
      call, an array by making a list of it; the keys stay the same. */
  method ListFormat(dct: map<string, Val>) returns (r: map<string, Val>)
    ensures Dict(r) == ListValue(Dict(dct))
    decreases Dict(dct)
  {
    r := dct;
    var pending := dct.Keys;
    while pending != {}
      invariant pending <= dct.Keys && r.Keys == dct.Keys
      invariant forall k :: k in dct && k !in pending ==> r[k] == ListValue(dct[k])
      invariant forall k :: k in pending ==> r[k] == dct[k]
      decreases pending
    {
      var key :| key in pending;
      match dct[key] {
        case Dict(inner) =>
          var converted := ListFormat(inner);
          r := r[key := Dict(converted)];
        case Arr(xs) =>
          r := r[key := List(xs)];
        case _ =>
      }
      pending := pending - {key};
    }
  }

  /** Converting lists to arrays and back restores a payload that held no arrays. */
  lemma {:induction false} ListOfNd(v: Val)
    requires NoArrays(v)
    ensures ListValue(NdValue(v)) == v
    decreases v
  {
    match v
    case Dict(m) =>
      forall k | k in m ensures ListValue(NdValue(m[k])) == m[k] {
        ListOfNd(m[k]);
      }
      assert NdValue(v).entries == map k | k in m :: NdValue(m[k]);
      assert ListValue(NdValue(v)).entries == map k | k in m :: ListValue(NdValue(m[k]));
    case List(_) =>
    case Arr(_) =>
    case Leaf(_) =>
  }

  /** Converting arrays to lists and back restores a payload that held no lists: what is
      dumped loads back as it was. */
  lemma {:induction false} NdOfList(v: Val)
    requires NoLists(v)
    ensures NdValue(ListValue(v)) == v
    decreases v
  {
    match v
    case Dict(m) =>
      forall k | k in m ensures NdValue(ListValue(m[k])) == m[k] {
        NdOfList(m[k]);
      }
      assert ListValue(v).entries == map k | k in m :: ListValue(m[k]);
      assert NdValue(ListValue(v)).entries == map k | k in m :: NdValue(ListValue(m[k]));
    case List(_) =>
    case Arr(_) =>
    case Leaf(_) =>
  }

  /** A payload with no list left is not changed by `nd_format`. */
  lemma {:induction false} NdFixesNoLists(v: Val)
    requires NoLists(v)
    ensures NdValue(v) == v
    decreases v
  {
    if v.Dict? {
      var m := v.entries;
      forall k | k in m ensures NdValue(m[k]) == m[k] {
        NdFixesNoLists(m[k]);
      }
      assert NdValue(v).entries == m;
    }
  }

  /** Converting twice is converting once. */
  lemma NdIdempotent(v: Val)
    ensures NdValue(NdValue(v)) == NdValue(v)
  {
    NdFixesNoLists(NdValue(v));
  }

  /** Every position of the converted payload holds what the original held there, converted:
      a list becomes an array of the same elements, a dictionary keeps its keys, anything else
      is unchanged, and no position appears or disappears. */
  lemma {:induction false} NdAtPath(v: Val, path: seq<string>)
    ensures Lookup(NdValue(v), path).Some? <==> Lookup(v, path).Some?
    ensures Lookup(v, path).Some? ==> var x := Lookup(v, path).value;
      && (x.List? ==> Lookup(NdValue(v), path) == Some(Arr(x.items)))
      && (x.Arr? || x.Leaf? ==> Lookup(NdValue(v), path) == Some(x))
      && (x.Dict? ==>
            Lookup(NdValue(v), path).value.Dict? && Lookup(NdValue(v), path).value.entries.Keys == x.entries.Keys)
    decreases |path|
  {
    if path != [] && v.Dict? && path[0] in v.entries {
      NdAtPath(v.entries[path[0]], path[1..]);
    }
  }

  /** The same for `list_format`: an array becomes a list of the same elements. */
  lemma {:induction false} ListAtPath(v: Val, path: seq<string>)
    ensures Lookup(ListValue(v), path).Some? <==> Lookup(v, path).Some?
    ensures Lookup(v, path).Some? ==> var x := Lookup(v, path).value;
      && (x.Arr? ==> Lookup(ListValue(v), path) == Some(List(x.items)))
      && (x.List? || x.Leaf? ==> Lookup(ListValue(v), path) == Some(x))
      && (x.Dict? ==>
            Lookup(ListValue(v), path).value.Dict? && Lookup(ListValue(v), path).value.entries.Keys == x.entries.Keys)
    decreases |path|
  {
    if path != [] && v.Dict? && path[0] in v.entries {
      ListAtPath(v.entries[path[0]], path[1..]);
    }
  }

  /** The value reached by following a path of keys through nested dictionaries. */
  function Lookup(v: Val, path: seq<string>): Option<Val>
    decreases |path|
  {
    if path == [] then Some(v)
    else if v.Dict? && path[0] in v.entries then Lookup(v.entries[path[0]], path[1..])
    else None
  }

  /** Files holding constituent payloads, by path. */
  type Payloads = map<string, map<string, Val>>

  /** The file of a station's constituents: the whole id lower-cased. */
  function ConstituentsPath(dir: string, uniqueId: string): (path: string)
    ensures NamesFile(path, dir, Lower(uniqueId), ".json")
  {
    dir + "/" + Lower(uniqueId) + ".json"
  }

  /** Two ids share a constituents file exactly when they lower-case the same. */
  lemma ConstituentsPathShared(dir: string, a: string, b: string)
    ensures ConstituentsPath(dir, a) == ConstituentsPath(dir, b) <==> Lower(a) == Lower(b)
  {
    if ConstituentsPath(dir, a) == ConstituentsPath(dir, b) {
      StemOfPath(ConstituentsPath(dir, a), dir, Lower(a), Lower(b), ".json");
    }
  }

  /** `pop("weights", None)`: the entry is removed when present, and its absence is no error. */
  function StripWeights(m: map<string, Val>): (r: map<string, Val>)
    ensures "weights" !in r
    ensures forall k :: k in r <==> k in m && k != "weights"
    ensures forall k :: k in r ==> r[k] == m[k]
  {
    m - {"weights"}
  }

  /** `load_constituents_from_path`: the stored payload with its lists made arrays. */
  method LoadConstituentsFromPath(files: Payloads, path: string) returns (r: Result<map<string, Val>>)
    ensures path !in files ==> r == Err(FileNotFound(path))
    ensures path in files ==> r.Ok? && Dict(r.value) == NdValue(Dict(files[path]))
  {
    if path !in files {
      return Err(FileNotFound(path));
    }
    var converted := NdFormat(files[path]);
    r := Ok(converted);
  }

  /** `load_constituents`: the same, from the station's file. */
  method LoadConstituents(files: Payloads, dir: string, uniqueId: string) returns (r: Result<map<string, Val>>)
    ensures var path := ConstituentsPath(dir, uniqueId);
      && (path !in files ==> r == Err(FileNotFound(path)))
      && (path in files ==> r.Ok? && Dict(r.value) == NdValue(Dict(files[path])))
  {
    r := LoadConstituentsFromPath(files, ConstituentsPath(dir, uniqueId));
  }

  /** What `dump_constituents` stores: the payload without `weights`, its arrays made lists. */
  function Dumped(constituents: map<string, Val>): (stored: map<string, Val>)
    ensures "weights" !in stored
    ensures NoArrays(Dict(stored))
  {
    ListValue(Dict(StripWeights(constituents))).entries
  }

  /** `dump_constituents`: the stored payload is written to the given path or else to the
      station's file; the caller's dictionary is changed too (`weights` removed, arrays made
      lists), and `remaining` is what it then holds. */
  method DumpConstituents(files: Payloads, dir: string, uniqueId: string, constituents: map<string, Val>,
                          path: Option<string>)
    returns (written: Payloads, remaining: map<string, Val>)
    ensures var target := if path.Some? then path.value else ConstituentsPath(dir, uniqueId);
            written == files[target := Dumped(constituents)]
    ensures remaining == Dumped(constituents)
  {
    var target := if path.Some? then path.value else ConstituentsPath(dir, uniqueId);
    var stripped := constituents - {"weights"};
    remaining := ListFormat(stripped);
    written := files[target := remaining];
  }

  /** Dumping a payload and loading it back from the station's file, under any spelling of
      the id that lower-cases the same, gives the payload without `weights`. */
  lemma DumpThenLoad(files: Payloads, dir: string, dumpId: string, loadId: string, constituents: map<string, Val>)
    requires Lower(dumpId) == Lower(loadId)
    requires NoLists(Dict(constituents))
    ensures var written := files[ConstituentsPath(dir, dumpId) := Dumped(constituents)];
            var path := ConstituentsPath(dir, loadId);
            path in written && NdValue(Dict(written[path])) == Dict(StripWeights(constituents))
  {
    var stripped := Dict(StripWeights(constituents));
    assert NoLists(stripped);
    NdOfList(stripped);
  }
}

=== FILE: date_ranges.dfy ===
/** `DateRange`: an interval between two UTC instants whose start is strictly before its end. */
module DateRanges {
  import opened Outcomes
  import opened Instants
  import SortedSets

  datatype DateRange = DateRange(start: Instant, end: Instant)

  /** The model validator `_check_start_before_end`. */
  predicate IsValid(r: DateRange) { r.start < r.end }

  /** `__lt__`: lexicographic on (start, end): the starts decide, the ends break a tie. */
  function Less(a: DateRange, b: DateRange): (lt: bool)
    ensures a.start != b.start ==> (lt <==> a.start < b.start)
    ensures a.start == b.start ==> (lt <==> a.end < b.end)
    ensures lt ==> a != b
  {
    a.start < b.start || (a.start == b.start && a.end < b.end)
  }

  /** `<` on ranges is a strict total order, so sorted collections of ranges are well defined. */
  lemma LessIsStrictTotalOrder()
    ensures SortedSets.IsStrictTotalOrder(Less)
  {
  }

  /** Validation of `{"start": start, "end": end}` into a DateRange: both ends are normalised
      to UTC, then the start must be strictly before the end. */
  function Validate(start: TimeInput, end: TimeInput): (r: Result<DateRange>)
    ensures r.Ok? <==> Normalize(start).Ok? && Normalize(end).Ok? && Normalize(start).value < Normalize(end).value
    ensures r.Ok? ==> r.value == DateRange(Normalize(start).value, Normalize(end).value) && IsValid(r.value)
    ensures Normalize(start).Ok? && Normalize(end).Ok? && Normalize(end).value <= Normalize(start).value
            ==> r == Err(RangeInversion)
    ensures Normalize(start).Err? || Normalize(end).Err? ==> r == Err(InvalidTimestamp)
  {
    var s :- Normalize(start);
    var e :- Normalize(end);
    if s < e then Ok(DateRange(s, e)) else Err(RangeInversion)
  }

  /** Swapping the ends of an accepted range, or giving the same end twice, is rejected. */
  lemma InvertedRejected(start: TimeInput, end: TimeInput)
    ensures Validate(start, end).Ok? ==> Validate(end, start) == Err(RangeInversion)
    ensures Normalize(start).Ok? ==> Validate(start, start) == Err(RangeInversion)
  {
  }

  /** What `DateRange.from_tuple` is given: a sequence of values, or something else. */
  datatype TupleArg = Sequence(items: seq<TimeInput>) | NonSequence

  /** `DateRange.from_tuple`: a sequence of exactly two values, validated as start and end. */
  function FromTuple(tpl: TupleArg): (r: Result<DateRange>)
    ensures tpl.NonSequence? ==> r == Err(NotASequence)
    ensures tpl.Sequence? && |tpl.items| != 2 ==> r == Err(WrongLength(|tpl.items|))
    ensures tpl.Sequence? && |tpl.items| == 2 ==> r == Validate(tpl.items[0], tpl.items[1])
    ensures r.Ok? ==> tpl.Sequence? && |tpl.items| == 2 && IsValid(r.value)
  {
    match tpl
    case NonSequence => Err(NotASequence)
    case Sequence(items) =>
      if |items| != 2 then Err(WrongLength(|items|)) else Validate(items[0], items[1])
  }

  /** The four spellings of the years 2010 and 2011 (year, full date, naive and aware datetimes)
      all give the same range, 2010-01-01T00:00Z to 2011-01-01T00:00Z. */
  lemma FromTupleSpellings()
    ensures var expected := Ok(DateRange(1_262_304_000_000_000, 1_293_840_000_000_000));
      && FromTuple(Sequence([Text("2010"), Text("2011")])) == expected
      && FromTuple(Sequence([Text("2010-01-01"), Text("2011-01-01")])) == expected
      && FromTuple(Sequence([Stamp(DateTime(1_262_304_000_000_000, None)),
                             Stamp(DateTime(1_293_840_000_000_000, None))])) == expected
      && FromTuple(Sequence([Stamp(DateTime(1_262_304_000_000_000, Some(0))),
                             Stamp(DateTime(1_293_840_000_000_000, Some(0)))])) == expected
  {
    Year2010();
    Year2011();
  }
}

=== FILE: documents.dfy ===
/** The stored form of a record: the round-trip dump of a `Transformation` as a document tree,
    and its validation back into a record. An instant is stored as its count of microseconds
    since the epoch, read back as an aware UTC value. */
module Documents {
  import opened Outcomes
  import opened Instants
  import opened DateRanges
  import opened SortedSets
  import opened Transformations

  datatype Json =
    | JNull
    | JBool(b: bool)
    | JInt(i: int)
    | JString(s: string)
    | JArray(items: seq<Json>)
    | JObject(fields: map<string, Json>)

  /** The fields a record document may hold; any other field is refused. The computed field
      `path` is not among them, and the round-trip dump leaves it out. */
  const RecordKeys: set<string> :=
    {"provider", "provider_id", "sensor", "notes", "skip", "wip", "start", "end",
     "date_ranges", "timestamps", "tsunamis"}

  /** The fields a record document must hold. */
  const RequiredKeys: set<string> := {"provider", "provider_id", "sensor", "start", "end"}

  const RangeKeys: set<string> := {"start", "end"}

  function EncodeRange(r: DateRange): Json
  {
    JObject(map["start" := JInt(r.start), "end" := JInt(r.end)])
  }

  function EncodeRanges(rs: seq<DateRange>): (items: seq<Json>)
    ensures |items| == |rs|
  {
    if rs == [] then [] else EncodeRanges(rs[..|rs| - 1]) + [EncodeRange(rs[|rs| - 1])]
  }

  function EncodeInstants(ts: seq<Instant>): (items: seq<Json>)
    ensures |items| == |ts|
  {
    if ts == [] then [] else EncodeInstants(ts[..|ts| - 1]) + [JInt(ts[|ts| - 1])]
  }

  /** `model_dump_json(round_trip=True)`: every stored field, the collections as arrays in
      ascending order. */
  function Encode(rec: Record): (doc: Json)
    ensures doc.JObject? && doc.fields.Keys == RecordKeys
  {
    JObject(map[
      "provider" := JString(rec.provider),
      "provider_id" := JString(rec.providerId),
      "sensor" := JString(rec.sensor),
      "notes" := JString(rec.notes),
      "skip" := JBool(rec.skip),
      "wip" := JBool(rec.wip),
      "start" := JInt(rec.start),
      "end" := JInt(rec.end),
      "date_ranges" := JArray(EncodeRanges(rec.dateRanges)),
      "timestamps" := JArray(EncodeInstants(rec.timestamps)),
      "tsunamis" := JArray(EncodeRanges(rec.tsunamis))])
  }

  /** What the `UTC` field type is handed from a document: an integer count is an aware UTC
      value, text goes to the date parser; anything else is refused. */
  function DecodeInstant(j: Json, field: string): (r: Result<TimeInput>)
    ensures j.JInt? ==> r == Ok(Stamp(DateTime(j.i, Some(0))))
    ensures j.JString? ==> r == Ok(Text(j.s))
    ensures !j.JInt? && !j.JString? ==> r == Err(Schema(field))
  {
    match j
    case JInt(i) => Ok(Stamp(DateTime(i, Some(0))))
    case JString(s) => Ok(Text(s))
    case _ => Err(Schema(field))
  }

  /** A range object: exactly the fields `start` and `end`, each an instant. */
  function DecodeRange(j: Json, field: string): (r: Result<RangeInput>)
    ensures !j.JObject? ==> r == Err(Schema(field))
    ensures j.JObject? && !(j.fields.Keys <= RangeKeys) ==> r == Err(ExtraInput)
    ensures j.JObject? && j.fields.Keys < RangeKeys ==> r == Err(Schema(field))
    ensures j.JObject? && j.fields.Keys == RangeKeys ==>
      var start, end := DecodeInstant(j.fields["start"], field), DecodeInstant(j.fields["end"], field);
      && (r.Ok? <==> start.Ok? && end.Ok?)
      && (r.Ok? ==> r.value == RangeInput(start.value, end.value))
      && (r.Err? ==> r.error == Schema(field))
    ensures r.Ok? ==> j.JObject? && j.fields.Keys == RangeKeys
  {
    if !j.JObject? then Err(Schema(field))
    else if !(j.fields.Keys <= RangeKeys) then Err(ExtraInput)
    else if "start" !in j.fields || "end" !in j.fields then Err(Schema(field))
    else
      var start :- DecodeInstant(j.fields["start"], field);
      var end :- DecodeInstant(j.fields["end"], field);
      Ok(RangeInput(start, end))
  }

  function DecodeRanges(items: seq<Json>, field: string): (r: Result<seq<RangeInput>>)
    ensures r.Ok? ==> |r.value| == |items|
  {
    if items == [] then Ok([])
    else
      var init :- DecodeRanges(items[..|items| - 1], field);
      var last :- DecodeRange(items[|items| - 1], field);
      Ok(init + [last])
  }

  function DecodeInstants(items: seq<Json>, field: string): (r: Result<seq<TimeInput>>)
    ensures r.Ok? ==> |r.value| == |items|
  {
    if items == [] then Ok([])
    else
      var init :- DecodeInstants(items[..|items| - 1], field);
      var last :- DecodeInstant(items[|items| - 1], field);
      Ok(init + [last])
  }

  function RequiredString(m: map<string, Json>, field: string): Result<string>
  {
    if field in m && m[field].JString? then Ok(m[field].s) else Err(Schema(field))
  }

  function OptionalString(m: map<string, Json>, field: string): Result<Option<string>>
  {
    if field !in m then Ok(None)
    else if m[field].JString? then Ok(Some(m[field].s))
    else Err(Schema(field))
  }

  function OptionalBool(m: map<string, Json>, field: string): Result<Option<bool>>
  {
    if field !in m then Ok(None)
    else if m[field].JBool? then Ok(Some(m[field].b))
    else Err(Schema(field))
  }

  function RequiredInstant(m: map<string, Json>, field: string): Result<TimeInput>
  {
    if field in m then DecodeInstant(m[field], field) else Err(Schema(field))
  }

  function OptionalRanges(m: map<string, Json>, field: string): Result<Option<seq<RangeInput>>>
  {
    if field !in m then Ok(None)
    else if m[field].JArray? then
      var ranges :- DecodeRanges(m[field].items, field);
      Ok(Some(ranges))
    else Err(Schema(field))
  }

  function OptionalInstants(m: map<string, Json>, field: string): Result<Option<seq<TimeInput>>>
  {
    if field !in m then Ok(None)
    else if m[field].JArray? then
      var instants :- DecodeInstants(m[field].items, field);
      Ok(Some(instants))
    else Err(Schema(field))
  }

  /** How the document's fields `m` give the constructor arguments `f`: each required field is
      present, a string field holds a string, a flag a boolean, an instant what `DecodeInstant`
      reads, and a collection an array of what its decoder reads; an optional field absent
      from the document is absent from the arguments. */
  ghost predicate ArgumentsOf(m: map<string, Json>, f: Fields)
  {
    && RequiredKeys <= m.Keys
    && m["provider"] == JString(f.provider)
    && m["provider_id"] == JString(f.providerId)
    && m["sensor"] == JString(f.sensor)
    && (f.notes.Some? <==> "notes" in m) && (f.notes.Some? ==> m["notes"] == JString(f.notes.value))
    && (f.skip.Some? <==> "skip" in m) && (f.skip.Some? ==> m["skip"] == JBool(f.skip.value))
    && (f.wip.Some? <==> "wip" in m) && (f.wip.Some? ==> m["wip"] == JBool(f.wip.value))
    && DecodeInstant(m["start"], "start") == Ok(f.start)
    && DecodeInstant(m["end"], "end") == Ok(f.end)
    && (f.dateRanges.Some? <==> "date_ranges" in m)
    && (f.dateRanges.Some? ==>
          m["date_ranges"].JArray? && DecodeRanges(m["date_ranges"].items, "date_ranges") == Ok(f.dateRanges.value))
    && (f.timestamps.Some? <==> "timestamps" in m)
    && (f.timestamps.Some? ==>
          m["timestamps"].JArray? && DecodeInstants(m["timestamps"].items, "timestamps") == Ok(f.timestamps.value))
    && (f.tsunamis.Some? <==> "tsunamis" in m)
    && (f.tsunamis.Some? ==>
          m["tsunamis"].JArray? && DecodeRanges(m["tsunamis"].items, "tsunamis") == Ok(f.tsunamis.value))
  }

  /** The document's fields as constructor arguments; an absent optional field stays absent. */
  function DecodeFields(doc: Json): (r: Result<Fields>)
    ensures !doc.JObject? ==> r == Err(Schema(""))
    ensures doc.JObject? && !(doc.fields.Keys <= RecordKeys) ==> r == Err(ExtraInput)
    ensures doc.JObject? && doc.fields.Keys <= RecordKeys && !(RequiredKeys <= doc.fields.Keys)
            ==> r.Err? && r.error.Schema?
    ensures r.Ok? ==> doc.JObject? && doc.fields.Keys <= RecordKeys && ArgumentsOf(doc.fields, r.value)
  {
    if !doc.JObject? then Err(Schema(""))
    else if !(doc.fields.Keys <= RecordKeys) then Err(ExtraInput)
    else
      var m := doc.fields;
      var provider :- RequiredString(m, "provider");
      var providerId :- RequiredString(m, "provider_id");
      var sensor :- RequiredString(m, "sensor");
      var notes :- OptionalString(m, "notes");
      var skip :- OptionalBool(m, "skip");
      var wip :- OptionalBool(m, "wip");
      var start :- RequiredInstant(m, "start");
      var end :- RequiredInstant(m, "end");
      var dateRanges :- OptionalRanges(m, "date_ranges");
      var timestamps :- OptionalInstants(m, "timestamps");
      var tsunamis :- OptionalRanges(m, "tsunamis");
      Ok(Fields(provider, providerId, sensor, notes, skip, wip, start, end, dateRanges, timestamps, tsunamis))
  }

  /** `model_validate_json`: the document's shape is checked, then the record is built and
      validated exactly as the constructor does. */
  function Decode(doc: Json): (r: Result<Record>)
    ensures r.Ok? ==> ValidRecord(r.value)
    ensures !doc.JObject? ==> r == Err(Schema(""))
    ensures doc.JObject? && !(doc.fields.Keys <= RecordKeys) ==> r == Err(ExtraInput)
    ensures doc.JObject? && doc.fields.Keys <= RecordKeys && !(RequiredKeys <= doc.fields.Keys)
            ==> r.Err? && r.error.Schema?
    ensures DecodeFields(doc).Err? ==> r == Err(DecodeFields(doc).error)
    ensures DecodeFields(doc).Ok? ==> r == Build(DecodeFields(doc).value)
  {
    var fields :- DecodeFields(doc);
    Build(fields)
  }

  /** The value an instant is read back as. */
  function UtcStamp(i: Instant): TimeInput { Stamp(DateTime(i, Some(0))) }

  function RangeInputOf(r: DateRange): RangeInput { RangeInput(UtcStamp(r.start), UtcStamp(r.end)) }

  function RangeInputsOf(rs: seq<DateRange>): (inputs: seq<RangeInput>)
    ensures |inputs| == |rs|
  {
    if rs == [] then [] else RangeInputsOf(rs[..|rs| - 1]) + [RangeInputOf(rs[|rs| - 1])]
  }

  function UtcStamps(ts: seq<Instant>): (inputs: seq<TimeInput>)
    ensures |inputs| == |ts|
  {
    if ts == [] then [] else UtcStamps(ts[..|ts| - 1]) + [UtcStamp(ts[|ts| - 1])]
  }

  lemma EncodedLookups(rec: Record)
    ensures var m := Encode(rec).fields;
      && m["provider"] == JString(rec.provider)
      && m["provider_id"] == JString(rec.providerId)
      && m["sensor"] == JString(rec.sensor)
      && m["notes"] == JString(rec.notes)
      && m["skip"] == JBool(rec.skip)
      && m["wip"] == JBool(rec.wip)
      && m["start"] == JInt(rec.start)
      && m["end"] == JInt(rec.end)
      && m["date_ranges"] == JArray(EncodeRanges(rec.dateRanges))
      && m["timestamps"] == JArray(EncodeInstants(rec.timestamps))
      && m["tsunamis"] == JArray(EncodeRanges(rec.tsunamis))
  {
  }

  lemma {:induction false} DecodeEncodedRanges(rs: seq<DateRange>, field: string)
    ensures DecodeRanges(EncodeRanges(rs), field) == Ok(RangeInputsOf(rs))
  {
    if rs != [] {
      var init := rs[..|rs| - 1];
      DecodeEncodedRanges(init, field);
      var items := EncodeRanges(rs);
      assert items[..|items| - 1] == EncodeRanges(init);
      var last := EncodeRange(rs[|rs| - 1]);
      assert last.fields.Keys == RangeKeys;
      assert DecodeRange(last, field) == Ok(RangeInputOf(rs[|rs| - 1]));
    }
  }

  lemma {:induction false} DecodeEncodedInstants(ts: seq<Instant>, field: string)
    ensures DecodeInstants(EncodeInstants(ts), field) == Ok(UtcStamps(ts))
  {
    if ts != [] {
      var init := ts[..|ts| - 1];
      DecodeEncodedInstants(init, field);
      var items := EncodeInstants(ts);
      assert items[..|items| - 1] == EncodeInstants(init);
    }
  }

  /** Re-validating the ranges of a valid record gives them back. */
  lemma {:induction false} RevalidateRanges(rs: seq<DateRange>)
    requires forall r :: r in rs ==> IsValid(r)
    ensures ValidateRanges(RangeInputsOf(rs)) == Ok(rs)
  {
    if rs != [] {
      var init, last := rs[..|rs| - 1], rs[|rs| - 1];
      assert rs == init + [last];
      RevalidateRanges(init);
      assert IsValid(last);
      NormalizeUtcStamp(last.start);
      NormalizeUtcStamp(last.end);
      var inputs := RangeInputsOf(rs);
      assert inputs == RangeInputsOf(init) + [RangeInputOf(last)];
      assert inputs[..|rs| - 1] == RangeInputsOf(init);
      assert Validate(UtcStamp(last.start), UtcStamp(last.end)) == Ok(last);
    }
  }

  lemma {:induction false} RevalidateInstants(ts: seq<Instant>)
    ensures ValidateInstants(UtcStamps(ts)) == Ok(ts)
  {
    if ts != [] {
      var init := ts[..|ts| - 1];
      var inputs := UtcStamps(ts);
      assert inputs[..|ts| - 1] == UtcStamps(init);
      RevalidateInstants(init);
      NormalizeUtcStamp(ts[|ts| - 1]);
      assert ts == init + [ts[|ts| - 1]];
    }
  }

  /** The constructor arguments the dump of a record is read back as. */
  function EncodedFields(rec: Record): Fields
  {
    Fields(rec.provider, rec.providerId, rec.sensor, Some(rec.notes), Some(rec.skip), Some(rec.wip),
           UtcStamp(rec.start), UtcStamp(rec.end),
           Some(RangeInputsOf(rec.dateRanges)), Some(UtcStamps(rec.timestamps)), Some(RangeInputsOf(rec.tsunamis)))
  }

  lemma DecodeFieldsOfEncode(rec: Record)
    ensures DecodeFields(Encode(rec)) == Ok(EncodedFields(rec))
  {
    var m := Encode(rec).fields;
    EncodedLookups(rec);
    DecodeEncodedRanges(rec.dateRanges, "date_ranges");
    DecodeEncodedRanges(rec.tsunamis, "tsunamis");
    DecodeEncodedInstants(rec.timestamps, "timestamps");
    assert RequiredString(m, "provider") == Ok(rec.provider);
    assert RequiredString(m, "provider_id") == Ok(rec.providerId);
    assert RequiredString(m, "sensor") == Ok(rec.sensor);
    assert OptionalString(m, "notes") == Ok(Some(rec.notes));
    assert OptionalBool(m, "skip") == Ok(Some(rec.skip));
    assert OptionalBool(m, "wip") == Ok(Some(rec.wip));
    assert RequiredInstant(m, "start") == Ok(UtcStamp(rec.start));
    assert RequiredInstant(m, "end") == Ok(UtcStamp(rec.end));
    assert OptionalRanges(m, "date_ranges") == Ok(Some(RangeInputsOf(rec.dateRanges)));
    assert OptionalInstants(m, "timestamps") == Ok(Some(UtcStamps(rec.timestamps)));
    assert OptionalRanges(m, "tsunamis") == Ok(Some(RangeInputsOf(rec.tsunamis)));
  }

  lemma BuildEncodedFields(rec: Record)
    requires ValidRecord(rec)
    ensures Build(EncodedFields(rec)) == Ok(rec)
  {
    NormalizeUtcStamp(rec.start);
    NormalizeUtcStamp(rec.end);
    LessIsStrictTotalOrder();
    BeforeIsStrictTotalOrder();
    RevalidateRanges(rec.dateRanges);
    FromListOfIncreasing(rec.dateRanges, Less);
    RevalidateRanges(rec.tsunamis);
    FromListOfIncreasing(rec.tsunamis, Less);
    RevalidateInstants(rec.timestamps);
    FromListOfIncreasing(rec.timestamps, Before);
    assert RangeSet(Some(RangeInputsOf(rec.dateRanges))) == Ok(rec.dateRanges);
    assert RangeSet(Some(RangeInputsOf(rec.tsunamis))) == Ok(rec.tsunamis);
    assert InstantSet(Some(UtcStamps(rec.timestamps))) == Ok(rec.timestamps);
  }

  /** Loading what was dumped gives back the same record: validation accepts the dump of
      every valid record, and rebuilds every field, every collection in its order. */
  lemma RoundTrip(rec: Record)
    requires ValidRecord(rec)
    ensures Decode(Encode(rec)) == Ok(rec)
  {
    DecodeFieldsOfEncode(rec);
    BuildEncodedFields(rec);
  }

  /** A document holding only the required fields validates to a record with the defaults. */
  lemma MinimalDocument(provider: string, providerId: string, sensor: string, start: Instant, end: Instant)
    ensures var doc := JObject(map["provider" := JString(provider), "provider_id" := JString(providerId),
                                   "sensor" := JString(sensor), "start" := JInt(start), "end" := JInt(end)]);
            Decode(doc) == Ok(Record(provider, providerId, sensor, "", true, true, start, end, [], [], []))
  {
    var doc := JObject(map["provider" := JString(provider), "provider_id" := JString(providerId),
                           "sensor" := JString(sensor), "start" := JInt(start), "end" := JInt(end)]);
    assert doc.fields.Keys <= RecordKeys;
    assert DecodeFields(doc) == Ok(Fields(provider, providerId, sensor, None, None, None,
                                          UtcStamp(start), UtcStamp(end), None, None, None));
    NormalizeUtcStamp(start);
    NormalizeUtcStamp(end);
  }
}

=== FILE: instants.dfy ===
/** Points in time and the `UTC` field type: every value the model stores is a UTC instant. */
module Instants {
  import opened Outcomes
  import SortedSets

  /** A UTC instant, counted in microseconds since 1970-01-01T00:00Z. */
  type Instant = int

  const MicrosPerDay: int := 86_400_000_000

  /** The strict order the sorted collection of timestamps is kept in. */
  function Before(a: Instant, b: Instant): bool { a < b }

  /** `<` on instants is a strict total order, so sorted collections of instants are well defined. */
  lemma BeforeIsStrictTotalOrder()
    ensures SortedSets.IsStrictTotalOrder(Before)
  {
  }

  /** A datetime value: a wall-clock reading (microseconds since 1970-01-01T00:00 on the
      value's own clock) and, when the value is aware, the offset of that clock east of UTC
      (in microseconds); a naive value has no offset. */
  datatype DateTime = DateTime(wall: int, offset: Option<int>)

  /** The absolute point in time an aware value denotes, on the UTC clock. */
  function Absolute(dt: DateTime): Instant
    requires dt.offset.Some?
  {
    dt.wall - dt.offset.value
  }

  /** `ensure_utc`: a naive value is tagged as UTC without moving its wall clock; an aware
      value is converted to the UTC reading of the same absolute instant. */
  function EnsureUtc(dt: DateTime): (r: DateTime)
    ensures r.offset == Some(0)
    ensures dt.offset.None? ==> r.wall == dt.wall
    ensures dt.offset.Some? ==> Absolute(r) == Absolute(dt)
  {
    match dt.offset
    case None => DateTime(dt.wall, Some(0))
    case Some(_) => DateTime(Absolute(dt), Some(0))
  }

  /** Whatever the `UTC` field type accepts: text, or a datetime value (naive or aware). */
  datatype TimeInput = Text(text: string) | Stamp(dt: DateTime)

  predicate IsDigit(c: char) { '0' <= c <= '9' }

  predicate AllDigits(s: string) { forall i :: 0 <= i < |s| ==> IsDigit(s[i]) }

  /** The number a string of decimal digits spells. */
  function DigitsValue(s: string): nat
    requires AllDigits(s)
  {
    if s == [] then 0 else DigitsValue(s[..|s| - 1]) * 10 + (s[|s| - 1] as int - '0' as int)
  }

  predicate IsLeapYear(y: int) { y % 4 == 0 && (y % 100 != 0 || y % 400 == 0) }

  function DaysInMonth(y: int, m: int): int
    requires 1 <= m <= 12
  {
    if m == 2 then (if IsLeapYear(y) then 29 else 28)
    else if m == 4 || m == 6 || m == 9 || m == 11 then 30
    else 31
  }

  /** Days from 1970-01-01 to the proleptic Gregorian date y-m-d (Euclidean division
      is floor division here, so the count is right before 1970 too). */
  function DaysFromCivil(y: int, m: int, d: int): int
    requires 1 <= m <= 12
  {
    var y' := if m <= 2 then y - 1 else y;
    var era := y' / 400;
    var yoe := y' - era * 400;
    var mp := if m > 2 then m - 3 else m + 9;
    var doy := (153 * mp + 2) / 5 + d - 1;
    var doe := yoe * 365 + yoe / 4 - yoe / 100 + doy;
    era * 146097 + doe - 719468
  }

  /** The naive value at midnight starting y-m-d. */
  function Midnight(y: int, m: int, d: int): DateTime
    requires 1 <= m <= 12
  {
    DateTime(DaysFromCivil(y, m, d) * MicrosPerDay, None)
  }

  /** `pd.Timestamp(text)` for the forms "YYYY", "YYYY-MM" and "YYYY-MM-DD"; a missing month
      or day is 1, and the result is naive. There is no year 0, so "0000" is refused, and so
      is any other text. */
  function ParseDate(s: string): Option<DateTime>
  {
    if |s| < 4 || !AllDigits(s[..4]) || DigitsValue(s[..4]) < 1 then None
    else
      var y := DigitsValue(s[..4]);
      if |s| == 4 then Some(Midnight(y, 1, 1))
      else if |s| < 7 || s[4] != '-' || !AllDigits(s[5..7]) then None
      else
        var m := DigitsValue(s[5..7]);
        if m < 1 || 12 < m then None
        else if |s| == 7 then Some(Midnight(y, m, 1))
        else if |s| != 10 || s[7] != '-' || !AllDigits(s[8..]) then None
        else
          var d := DigitsValue(s[8..]);
          if d < 1 || DaysInMonth(y, m) < d then None
          else Some(Midnight(y, m, d))
  }

  /** The `UTC` field type: `pd.Timestamp` first, then `ensure_utc`. */
  function Normalize(input: TimeInput): (r: Result<Instant>)
    ensures input.Stamp? && input.dt.offset.None? ==> r == Ok(input.dt.wall)
    ensures input.Stamp? && input.dt.offset.Some? ==> r == Ok(Absolute(input.dt))
    ensures input.Text? ==> (r.Ok? <==> ParseDate(input.text).Some?)
    ensures input.Text? && r.Ok? ==> r.value == ParseDate(input.text).value.wall
    ensures r.Err? ==> r.error == InvalidTimestamp
  {
    var parsed := match input
      case Text(s) => ParseDate(s)
      case Stamp(dt) => Some(dt);
    match parsed
    case None => Err(InvalidTimestamp)
    case Some(dt) => Ok(EnsureUtc(dt).wall)
  }

  /** Normalising twice is normalising once: an instant read back as an aware UTC value is itself. */
  lemma NormalizeUtcStamp(i: Instant)
    ensures Normalize(Stamp(DateTime(i, Some(0)))) == Ok(i)
    ensures Normalize(Stamp(DateTime(i, None))) == Ok(i)
  {
  }

  lemma DigitsZeroOne()
    ensures AllDigits("01") && DigitsValue("01") == 1
  {
    assert "01"[..1] == "0";
    assert "0"[..0] == "";
  }

  /** A year, the same year with "-01", and with "-01-01" all denote midnight on 1 January
      of that year, read as UTC. */
  lemma ShortFormsAgree(y: string)
    requires |y| == 4 && AllDigits(y) && 1 <= DigitsValue(y)
    ensures Normalize(Text(y)) == Ok(DaysFromCivil(DigitsValue(y), 1, 1) * MicrosPerDay)
    ensures Normalize(Text(y + "-01")) == Normalize(Text(y))
    ensures Normalize(Text(y + "-01-01")) == Normalize(Text(y))
  {
    var year := DigitsValue(y);
    var jan1 := Midnight(year, 1, 1);
    assert y[..4] == y;
    assert ParseDate(y) == Some(jan1);
    DigitsZeroOne();
    var ym := y + "-01";
    assert ym[..4] == y && ym[4] == '-' && ym[5..7] == "01";
    assert ParseDate(ym) == Some(jan1);
    var ymd := y + "-01-01";
    assert ymd[..4] == y && ymd[4] == '-' && ymd[5..7] == "01";
    assert ymd[7] == '-' && ymd[8..] == "01";
    assert ParseDate(ymd) == Some(jan1);
  }

  /** There is no year 0: "0000", in any of the three forms, is not a timestamp. */
  lemma YearZeroRefused()
    ensures Normalize(Text("0000")) == Err(InvalidTimestamp)
    ensures Normalize(Text("0000-01")) == Err(InvalidTimestamp)
    ensures Normalize(Text("0000-01-01")) == Err(InvalidTimestamp)
  {
    assert "0"[..0] == "";
    assert DigitsValue("0") == 0;
    assert "00"[..1] == "0";
    assert DigitsValue("00") == 0;
    assert "000"[..2] == "00";
    assert DigitsValue("000") == 0;
    assert "0000"[..3] == "000";
    assert DigitsValue("0000") == 0;
    assert "0000"[..4] == "0000" && "0000-01"[..4] == "0000" && "0000-01-01"[..4] == "0000";
  }

  /** "2010", "2010-01", "2010-01-01" and a naive datetime at 2010-01-01T00:00 all read as
      the UTC instant 2010-01-01T00:00Z (1262304000 seconds after the epoch). */
  lemma Year2010()
    ensures Normalize(Text("2010")) == Ok(1_262_304_000_000_000)
    ensures Normalize(Text("2010-01")) == Ok(1_262_304_000_000_000)
    ensures Normalize(Text("2010-01-01")) == Ok(1_262_304_000_000_000)
    ensures Normalize(Stamp(DateTime(1_262_304_000_000_000, None))) == Ok(1_262_304_000_000_000)
  {
    Jan1st2010();
    ShortFormsAgree("2010");
    assert "2010" + "-01" == "2010-01" && "2010" + "-01-01" == "2010-01-01";
  }

  lemma Jan1st2010()
    ensures AllDigits("2010")
    ensures DaysFromCivil(DigitsValue("2010"), 1, 1) * MicrosPerDay == 1_262_304_000_000_000
  {
    assert AllDigits("2010");
    assert DigitsValue("2010") == 2010 by {
      assert "2010"[..3] == "201" && "201"[..2] == "20" && "20"[..1] == "2" && "2"[..0] == "";
    }
    assert DaysFromCivil(2010, 1, 1) == 14610;
  }

  lemma Year2011()
    ensures Normalize(Text("2011")) == Ok(1_293_840_000_000_000)
    ensures Normalize(Text("2011-01-01")) == Ok(1_293_840_000_000_000)
  {
    assert AllDigits("2011");
    assert DigitsValue("2011") == 2011 by {
      assert "2011"[..3] == "201" && "201"[..2] == "20" && "20"[..1] == "2" && "2"[..0] == "";
    }
    assert DaysFromCivil(2011, 1, 1) == 14975;
    ShortFormsAgree("2011");
    assert "2011" + "-01-01" == "2011-01-01";
  }
}

=== FILE: mask.dfy ===
/** `transform`: the masking of a station's raw series by its annotation record. The series is
    clipped to the record's window; then each instant listed in `timestamps`, and each instant
    inside a range of `date_ranges` or of `tsunamis` (bounds included), has its raw value copied
    into the matching flag column and its `clean` value blanked. A missing value (NaN) is `None`. */
module Mask {
  import opened Outcomes
  import opened Instants
  import opened DateRanges
  import opened Transformations
  import opened Store

  /** One sample of the raw series. */
  datatype Sample<V> = Sample(t: Instant, raw: Option<V>)

  /** One row of the transformed frame. */
  datatype Row<V> = Row(t: Instant, raw: Option<V>, clean: Option<V>,
                        timestamps: Option<V>, dateRanges: Option<V>, tsunamis: Option<V>)

  /** The two flag columns filled from a collection of ranges. */
  datatype Column = DateRangesColumn | TsunamisColumn

  /** Bounds included, as label slicing includes them. */
  predicate InRange(t: Instant, d: DateRange) { d.start <= t <= d.end }

  predicate Covered(t: Instant, rs: seq<DateRange>)
  {
    exists k :: 0 <= k < |rs| && InRange(t, rs[k])
  }

  /** `df.assign(clean=df.raw, timestamps=nan, date_ranges=nan, tsunamis=nan)`. */
  function Initial<V>(series: seq<Sample<V>>): (rows: seq<Row<V>>)
    ensures |rows| == |series|
    ensures forall i :: 0 <= i < |series| ==>
      rows[i] == Row(series[i].t, series[i].raw, series[i].raw, None, None, None)
  {
    seq(|series|, i requires 0 <= i < |series| => Row(series[i].t, series[i].raw, series[i].raw, None, None, None))
  }

  /** `df[start:end]`: the rows whose instant lies in the window, bounds included, in order. */
  function Clip<V>(rows: seq<Row<V>>, start: Instant, end: Instant): (kept: seq<Row<V>>)
    ensures |kept| <= |rows|
  {
    if rows == [] then []
    else
      var last := rows[|rows| - 1];
      Clip(rows[..|rows| - 1], start, end) + (if start <= last.t <= end then [last] else [])
  }

  /** The timestamps step on one row: a listed instant has its raw value flagged and its clean
      value blanked. */
  function MarkStampRow<V>(row: Row<V>, ts: seq<Instant>): Row<V>
  {
    if row.t in ts then row.(timestamps := row.raw, clean := None) else row
  }

  function MarkStamps<V>(rows: seq<Row<V>>, ts: seq<Instant>): (marked: seq<Row<V>>)
    ensures |marked| == |rows|
  {
    seq(|rows|, i requires 0 <= i < |rows| => MarkStampRow(rows[i], ts))
  }

  /** One range on one row: inside the range, the raw value goes to the flag column and the
      clean value is blanked. */
  function MarkRangeRow<V>(row: Row<V>, d: DateRange, col: Column): Row<V>
  {
    if !InRange(row.t, d) then row
    else match col
      case DateRangesColumn => row.(dateRanges := row.raw, clean := None)
      case TsunamisColumn => row.(tsunamis := row.raw, clean := None)
  }

  function MarkRange<V>(rows: seq<Row<V>>, d: DateRange, col: Column): (marked: seq<Row<V>>)
    ensures |marked| == |rows|
  {
    seq(|rows|, i requires 0 <= i < |rows| => MarkRangeRow(rows[i], d, col))
  }

  /** The ranges applied one after the other, in the order of the collection. */
  function MarkRanges<V>(rows: seq<Row<V>>, rs: seq<DateRange>, col: Column): (marked: seq<Row<V>>)
    ensures |marked| == |rows|
  {
    if rs == [] then rows
    else MarkRange(MarkRanges(rows, rs[..|rs| - 1], col), rs[|rs| - 1], col)
  }

  /** The whole transform, step by step as the source takes it. */
  function Pipeline<V>(series: seq<Sample<V>>, rec: Record): seq<Row<V>>
  {
    var kept := Clip(Initial(series), rec.start, rec.end);
    MarkRanges(MarkRanges(MarkStamps(kept, rec.timestamps), rec.dateRanges, DateRangesColumn),
               rec.tsunamis, TsunamisColumn)
  }

  /** `transform(df, trans)`: the input series is a value and is left as it is; the frame is
      the clipped copy, updated in place range by range. */
  method Transform<V>(series: seq<Sample<V>>, trans: Transformation) returns (rows: seq<Row<V>>)
    ensures rows == Pipeline(series, trans.Value())
  {
    var kept := Clip(Initial(series), trans.start, trans.end);
    var frame := new Row<V>[|kept|](i requires 0 <= i < |kept| => kept[i]);
    // The source also skips this step when no row is listed; that only saves work.
    if trans.timestamps != [] {
      for i := 0 to frame.Length
        invariant forall j :: 0 <= j < i ==> frame[j] == MarkStampRow(kept[j], trans.timestamps)
        invariant forall j :: i <= j < frame.Length ==> frame[j] == kept[j]
      {
        if frame[i].t in trans.timestamps {
          frame[i] := frame[i].(timestamps := frame[i].raw, clean := None);
        }
      }
    }
    assert frame[..] == MarkStamps(kept, trans.timestamps);
    ApplyRanges(frame, trans.dateRanges, DateRangesColumn);
    ApplyRanges(frame, trans.tsunamis, TsunamisColumn);
    rows := frame[..];
  }

  /** One `for date_range in ...` loop of `transform`: every range of the collection, in order,
      marks the rows it covers. */
  method ApplyRanges<V>(frame: array<Row<V>>, rs: seq<DateRange>, col: Column)
    modifies frame
    ensures frame[..] == MarkRanges(old(frame[..]), rs, col)
  {
    ghost var start := frame[..];
    for k := 0 to |rs|
      invariant frame[..] == MarkRanges(start, rs[..k], col)
    {
      ghost var before := frame[..];
      var d := rs[k];
      for i := 0 to frame.Length
        invariant forall j :: 0 <= j < i ==> frame[j] == MarkRangeRow(before[j], d, col)
        invariant forall j :: i <= j < frame.Length ==> frame[j] == before[j]
      {
        if d.start <= frame[i].t <= d.end {
          match col
          case DateRangesColumn => frame[i] := frame[i].(dateRanges := frame[i].raw, clean := None);
          case TsunamisColumn => frame[i] := frame[i].(tsunamis := frame[i].raw, clean := None);
        }
      }
      assert frame[..] == MarkRange(before, d, col);
      assert rs[..k + 1][..k] == rs[..k];
    }
    assert rs[..|rs|] == rs;
  }

  /** `transform(df)` with no record: the record is looked up by the series' station
      attributes, lower-cased, and loaded as `load_trans` does; a failed lookup is the error. */
  method TransformStored<V>(series: seq<Sample<V>>, provider: string, providerId: string, sensor: string,
                            files: Files, raw: RawSeries, transDir: string, rawDir: string)
    returns (r: Result<seq<Row<V>>>)
    ensures var loaded := LoadTrans(files, raw, transDir, rawDir, AttrsKey(provider, providerId, sensor));
            if loaded.Ok? then r == Ok(Pipeline(series, loaded.value)) else r == Err(loaded.error)
  {
    var loaded := LoadTrans(files, raw, transDir, rawDir, AttrsKey(provider, providerId, sensor));
    if loaded.Err? {
      return Err(loaded.error);
    }
    var trans := new Transformation(loaded.value);
    var rows := Transform(series, trans);
    r := Ok(rows);
  }

  // ----- What the transform promises, row by row -----

  /** The clip keeps exactly the rows inside the window. */
  lemma {:induction false} ClipMember<V>(rows: seq<Row<V>>, start: Instant, end: Instant, r: Row<V>)
    ensures r in Clip(rows, start, end) <==> r in rows && start <= r.t <= end
  {
    if rows != [] {
      var init := rows[..|rows| - 1];
      ClipMember(init, start, end, r);
      assert rows == init + [rows[|rows| - 1]];
    }
  }

  /** The flags of one collection of ranges, row by row: the flag column holds the raw value
      exactly on rows some range covers, and `clean` is blanked there; nothing else changes. */
  lemma {:induction false} MarkRangesSpec<V>(rows: seq<Row<V>>, rs: seq<DateRange>, col: Column)
    ensures forall i :: 0 <= i < |rows| ==>
      var r, m := rows[i], MarkRanges(rows, rs, col)[i];
      && m.t == r.t && m.raw == r.raw && m.timestamps == r.timestamps
      && m.clean == (if Covered(r.t, rs) then None else r.clean)
      && (col == DateRangesColumn ==>
            m.tsunamis == r.tsunamis && m.dateRanges == (if Covered(r.t, rs) then r.raw else r.dateRanges))
      && (col == TsunamisColumn ==>
            m.dateRanges == r.dateRanges && m.tsunamis == (if Covered(r.t, rs) then r.raw else r.tsunamis))
  {
    if rs != [] {
      var init := rs[..|rs| - 1];
      var d := rs[|rs| - 1];
      MarkRangesSpec(rows, init, col);
      forall i | 0 <= i < |rows| ensures Covered(rows[i].t, rs) <==> Covered(rows[i].t, init) || InRange(rows[i].t, d) {
        if Covered(rows[i].t, rs) {
          var k :| 0 <= k < |rs| && InRange(rows[i].t, rs[k]);
          if k < |init| { assert init[k] == rs[k]; }
        }
        if Covered(rows[i].t, init) {
          var k :| 0 <= k < |init| && InRange(rows[i].t, init[k]);
          assert rs[k] == init[k];
        }
      }
    }
  }

  /** Every row of the result, column by column: instant and raw value as clipped; each flag
      column holds the raw value exactly where its condition holds; `clean` is the raw value
      exactly where no condition holds, and missing elsewhere. */
  lemma Columns<V>(series: seq<Sample<V>>, rec: Record)
    ensures var kept := Clip(Initial(series), rec.start, rec.end);
            var out := Pipeline(series, rec);
      && |out| == |kept|
      && forall i :: 0 <= i < |out| ==>
        var r, k := out[i], kept[i];
        var listed := r.t in rec.timestamps;
        && r.t == k.t && r.raw == k.raw
        && r.timestamps == (if listed then r.raw else None)
        && r.dateRanges == (if Covered(r.t, rec.dateRanges) then r.raw else None)
        && r.tsunamis == (if Covered(r.t, rec.tsunamis) then r.raw else None)
        && r.clean == (if listed || Covered(r.t, rec.dateRanges) || Covered(r.t, rec.tsunamis) then None else r.raw)
  {
    var rows := Initial(series);
    var kept := Clip(rows, rec.start, rec.end);
    forall i | 0 <= i < |kept| ensures kept[i].clean == kept[i].raw && kept[i].timestamps == None
      && kept[i].dateRanges == None && kept[i].tsunamis == None
    {
      var r := kept[i];
      ClipMember(rows, rec.start, rec.end, r);
      var k :| 0 <= k < |rows| && rows[k] == r;
    }
    var stamped := MarkStamps(kept, rec.timestamps);
    MarkRangesSpec(stamped, rec.dateRanges, DateRangesColumn);
    MarkRangesSpec(MarkRanges(stamped, rec.dateRanges, DateRangesColumn), rec.tsunamis, TsunamisColumn);
  }

  /** The clip keeps only rows inside the window, and every sample inside the window
      appears in the result. */
  lemma Window<V>(series: seq<Sample<V>>, rec: Record)
    ensures forall r :: r in Pipeline(series, rec) ==> rec.start <= r.t <= rec.end
    ensures forall k :: 0 <= k < |series| && rec.start <= series[k].t <= rec.end ==>
      Initial(series)[k] in Clip(Initial(series), rec.start, rec.end)
  {
    var rows := Initial(series);
    var kept := Clip(rows, rec.start, rec.end);
    Columns(series, rec);
    forall r | r in Pipeline(series, rec) ensures rec.start <= r.t <= rec.end {
      var out := Pipeline(series, rec);
      var i :| 0 <= i < |out| && out[i] == r;
      ClipMember(rows, rec.start, rec.end, kept[i]);
      assert out[i].t == kept[i].t;
    }
    forall k | 0 <= k < |series| && rec.start <= series[k].t <= rec.end
      ensures rows[k] in kept
    {
      ClipMember(rows, rec.start, rec.end, rows[k]);
    }
  }

  /** A listed instant inside both a date range and a tsunami is flagged in all three columns:
      the flags are not exclusive. */
  lemma FlagsOverlap<V>(series: seq<Sample<V>>, rec: Record, i: nat)
    requires i < |Pipeline(series, rec)|
    requires var t := Pipeline(series, rec)[i].t;
             t in rec.timestamps && Covered(t, rec.dateRanges) && Covered(t, rec.tsunamis)
    ensures var r := Pipeline(series, rec)[i];
            r.timestamps == r.raw && r.dateRanges == r.raw && r.tsunamis == r.raw && r.clean == None
  {
    Columns(series, rec);
  }

  // ----- On a series in time order, the clip is a slice -----

  predicate TimesIncreasing<V>(rows: seq<Row<V>>)
  {
    forall i, j :: 0 <= i < j < |rows| ==> rows[i].t < rows[j].t
  }

  /** The number of rows before `start`. */
  function Below<V>(rows: seq<Row<V>>, start: Instant): (n: nat)
    ensures n <= |rows|
  {
    if rows == [] then 0
    else Below(rows[..|rows| - 1], start) + (if rows[|rows| - 1].t < start then 1 else 0)
  }

  /** The number of rows up to and including `end`. */
  function UpTo<V>(rows: seq<Row<V>>, end: Instant): (n: nat)
    ensures n <= |rows|
  {
    if rows == [] then 0
    else UpTo(rows[..|rows| - 1], end) + (if rows[|rows| - 1].t <= end then 1 else 0)
  }

  lemma {:induction false} AllBefore<V>(rows: seq<Row<V>>, bound: Instant)
    requires forall i :: 0 <= i < |rows| ==> rows[i].t < bound
    ensures Below(rows, bound) == |rows| && UpTo(rows, bound) == |rows|
  {
    if rows != [] {
      AllBefore(rows[..|rows| - 1], bound);
    }
  }

  /** In a series in time order, the rows inside the window are one contiguous slice, taken in
      order: those after the rows before `start` and up to the last row not after `end`. */
  lemma {:induction false} ClipSlice<V>(rows: seq<Row<V>>, start: Instant, end: Instant)
    requires TimesIncreasing(rows)
    requires start <= end
    ensures Below(rows, start) <= UpTo(rows, end)
    ensures Clip(rows, start, end) == rows[Below(rows, start)..UpTo(rows, end)]
  {
    if rows != [] {
      var init := rows[..|rows| - 1];
      var last := rows[|rows| - 1];
      assert TimesIncreasing(init);
      ClipSlice(init, start, end);
      assert forall i :: 0 <= i < |init| ==> init[i].t < last.t;
      if last.t < start {
        AllBefore(init, last.t);
        AllBefore(init, start);
        AllBefore(init, end);
      } else if last.t <= end {
        AllBefore(init, last.t);
        AllBefore(init, end + 1);
        assert UpTo(init, end) == |init| by {
          UpToMonotone(init, end, last.t);
        }
        assert rows[Below(rows, start)..UpTo(rows, end)] == init[Below(init, start)..|init|] + [last];
      } else {
        assert rows[Below(rows, start)..UpTo(rows, end)] == init[Below(init, start)..UpTo(init, end)];
      }
    }
  }

  /** Rows before `bound` are all counted up to any later limit. */
  lemma {:induction false} UpToMonotone<V>(rows: seq<Row<V>>, end: Instant, bound: Instant)
    requires forall i :: 0 <= i < |rows| ==> rows[i].t < bound
    requires bound <= end
    ensures UpTo(rows, end) == |rows|
  {
    if rows != [] {
      UpToMonotone(rows[..|rows| - 1], end, bound);
    }
  }

  /** On a series in time order and a window that is not inverted, the result's rows are the
      samples at consecutive positions `lo .. hi-1` of the series, in their order. */
  lemma SortedWindow<V>(series: seq<Sample<V>>, rec: Record)
    requires forall i, j :: 0 <= i < j < |series| ==> series[i].t < series[j].t
    requires rec.start <= rec.end
    ensures var rows := Initial(series);
            var lo, hi := Below(rows, rec.start), UpTo(rows, rec.end);
            var out := Pipeline(series, rec);
      && lo <= hi <= |series| && |out| == hi - lo
      && forall i :: 0 <= i < |out| ==> out[i].t == series[lo + i].t && out[i].raw == series[lo + i].raw
  {
    var rows := Initial(series);
    assert TimesIncreasing(rows);
    ClipSlice(rows, rec.start, rec.end);
    Columns(series, rec);
  }
}

=== FILE: outcomes.dfy ===
/** Failure-compatible results and the error kinds raised by the annotation model. */
module Outcomes {

  datatype Option<+T> = None | Some(value: T)

  /** Why a validation, a lookup or a load failed. */
  datatype Error =
    | InvalidTimestamp                 // a value that cannot be read as a point in time
    | RangeInversion                   // a date range whose start is not strictly before its end
    | NotASequence                     // DateRange.from_tuple given something that is not a sequence
    | WrongLength(length: nat)         // DateRange.from_tuple given a sequence whose length is not 2
    | MalformedKey(parts: nat)         // a station key that does not split into three parts
    | EmptyRecord                      // a raw record with no first or last index value
    | FileNotFound(path: string)       // no document stored under that path
    | Schema(field: string)            // a document whose field is missing or of the wrong kind
    | ExtraInput                       // a document holding a field the record does not have

  /** How a mutator that returns nothing ended: normally, or by raising. */
  datatype Outcome = Pass | Fail(error: Error)

  datatype Result<+T> = Ok(value: T) | Err(error: Error) {
    predicate IsFailure() { Err? }

    function PropagateFailure<U>(): Result<U>
      requires Err?
    {
      Err(error)
    }

    function Extract(): T
      requires Ok?
    {
      value
    }
  }
}

=== FILE: sorted_sets.dfy ===
/** The sorted, duplicate-free container behind the annotation record's three collections
    (a `SortedSet`): a sequence kept strictly ascending under an ordering `lt`. */
module SortedSets {

  /** `lt` is irreflexive, transitive and relates any two distinct values one way or the other. */
  ghost predicate IsStrictTotalOrder<T(!new)>(lt: (T, T) -> bool)
  {
    && (forall a :: !lt(a, a))
    && (forall a, b, c :: lt(a, b) && lt(b, c) ==> lt(a, c))
    && (forall a, b :: a == b || lt(a, b) || lt(b, a))
  }

  /** Ascending and free of duplicates: every earlier element is below every later one. */
  ghost predicate Increasing<T>(s: seq<T>, lt: (T, T) -> bool)
  {
    forall i, j :: 0 <= i < j < |s| ==> lt(s[i], s[j])
  }

  /** `add(x)`: put `x` in its place, unless it is already there. */
  function Insert<T(==)>(s: seq<T>, x: T, lt: (T, T) -> bool): seq<T>
  {
    if s == [] then [x]
    else if x == s[0] then s
    else if lt(x, s[0]) then [x] + s
    else [s[0]] + Insert(s[1..], x, lt)
  }

  /** `update(xs)`: add every element of `xs`, one after the other. */
  function Union<T(==)>(s: seq<T>, xs: seq<T>, lt: (T, T) -> bool): seq<T>
  {
    if xs == [] then s
    else Insert(Union(s, xs[..|xs| - 1], lt), xs[|xs| - 1], lt)
  }

  /** `SortedSet(xs)`: the ascending, duplicate-free arrangement of the elements of `xs`. */
  function FromList<T(==)>(xs: seq<T>, lt: (T, T) -> bool): seq<T>
  {
    Union([], xs, lt)
  }

  /** Insertion keeps the sequence ascending, adds exactly `x`, and grows it by one
      exactly when `x` was not there yet. */
  lemma {:induction false} InsertSpec<T(!new)>(s: seq<T>, x: T, lt: (T, T) -> bool)
    requires IsStrictTotalOrder(lt)
    requires Increasing(s, lt)
    ensures Increasing(Insert(s, x, lt), lt)
    ensures forall y :: y in Insert(s, x, lt) <==> y in s || y == x
    ensures |Insert(s, x, lt)| == if x in s then |s| else |s| + 1
  {
    if s == [] || x == s[0] {
    } else if lt(x, s[0]) {
      var r := [x] + s;
      forall i, j | 0 <= i < j < |r| ensures lt(r[i], r[j]) {
        if i > 0 {
          assert r[i] == s[i - 1] && r[j] == s[j - 1];
        } else if j > 1 {
          assert lt(s[0], s[j - 1]);
        }
      }
      assert x !in s by {
        forall k | 0 <= k < |s| ensures s[k] != x {
          if k > 0 { assert lt(s[0], s[k]); }
        }
      }
    } else {
      var tail := s[1..];
      assert Increasing(tail, lt) by {
        forall i, j | 0 <= i < j < |tail| ensures lt(tail[i], tail[j]) {
          assert tail[i] == s[i + 1] && tail[j] == s[j + 1];
        }
      }
      InsertSpec(tail, x, lt);
      var rest := Insert(tail, x, lt);
      var r := [s[0]] + rest;
      assert lt(s[0], x);
      forall i, j | 0 <= i < j < |r| ensures lt(r[i], r[j]) {
        if i > 0 {
          assert r[i] == rest[i - 1] && r[j] == rest[j - 1];
        } else {
          assert r[j] in rest;
          var y := r[j];
          if y != x {
            var k :| 0 <= k < |tail| && tail[k] == y;
            assert s[k + 1] == y;
          }
        }
      }
      assert s == [s[0]] + tail;
      assert x in s <==> x in tail;
    }
  }

  lemma HeadIsMember<T>(s: seq<T>)
    requires s != []
    ensures s[0] in s
  {
  }

  /** The first element of an ascending sequence is below every other element. */
  lemma HeadIsLeast<T(!new)>(s: seq<T>, y: T, lt: (T, T) -> bool)
    requires Increasing(s, lt)
    requires y in s
    ensures y == s[0] || lt(s[0], y)
  {
    var i :| 0 <= i < |s| && s[i] == y;
    if i > 0 {
      assert lt(s[0], s[i]);
    }
  }

  /** Two ascending sequences with the same elements are the same sequence. */
  lemma {:induction false} Unique<T(!new)>(a: seq<T>, b: seq<T>, lt: (T, T) -> bool)
    requires IsStrictTotalOrder(lt)
    requires Increasing(a, lt) && Increasing(b, lt)
    requires forall y :: y in a <==> y in b
    ensures a == b
  {
    if a != [] && b != [] {
      HeadIsLeast(a, b[0], lt);
      HeadIsLeast(b, a[0], lt);
      var a', b' := a[1..], b[1..];
      assert Increasing(a', lt) by {
        forall i, j | 0 <= i < j < |a'| ensures lt(a'[i], a'[j]) {
          assert a'[i] == a[i + 1] && a'[j] == a[j + 1];
        }
      }
      assert Increasing(b', lt) by {
        forall i, j | 0 <= i < j < |b'| ensures lt(b'[i], b'[j]) {
          assert b'[i] == b[i + 1] && b'[j] == b[j + 1];
        }
      }
      forall y ensures y in a' <==> y in b' {
        if y in a' {
          var i :| 0 <= i < |a'| && a'[i] == y;
          assert lt(a[0], a[i + 1]);
          assert y in b && y != b[0];
          assert b == [b[0]] + b';
        }
        if y in b' {
          var i :| 0 <= i < |b'| && b'[i] == y;
          assert lt(b[0], b[i + 1]);
          assert y in a && y != a[0];
          assert a == [a[0]] + a';
        }
      }
      Unique(a', b', lt);
      assert a == [a[0]] + a' && b == [b[0]] + b';
    } else if a != [] {
      HeadIsMember(a);
      assert false;
    } else if b != [] {
      HeadIsMember(b);
      assert false;
    }
  }

  lemma TailIncreasing<T>(s: seq<T>, lt: (T, T) -> bool)
    requires s != [] && Increasing(s, lt)
    ensures Increasing(s[1..], lt)
  {
    var tail := s[1..];
    forall i, j | 0 <= i < j < |tail| ensures lt(tail[i], tail[j]) {
      assert tail[i] == s[i + 1] && tail[j] == s[j + 1];
    }
  }

  /** Adding an element that is already there changes nothing. */
  lemma {:induction false} InsertPresent<T(!new)>(s: seq<T>, x: T, lt: (T, T) -> bool)
    requires IsStrictTotalOrder(lt)
    requires Increasing(s, lt)
    requires x in s
    ensures Insert(s, x, lt) == s
  {
    if x != s[0] {
      HeadIsLeast(s, x, lt);
      assert !lt(x, s[0]);
      TailIncreasing(s, lt);
      assert s == [s[0]] + s[1..];
      InsertPresent(s[1..], x, lt);
    }
  }

  /** Adding an element a second time changes nothing. */
  lemma InsertIdempotent<T(!new)>(s: seq<T>, x: T, lt: (T, T) -> bool)
    requires IsStrictTotalOrder(lt)
    requires Increasing(s, lt)
    ensures Insert(Insert(s, x, lt), x, lt) == Insert(s, x, lt)
    ensures Insert(s, x, lt) == s <==> x in s
  {
    InsertSpec(s, x, lt);
    InsertPresent(Insert(s, x, lt), x, lt);
    if x in s {
      InsertPresent(s, x, lt);
    }
  }

  /** A union keeps the sequence ascending and holds exactly the old elements and the new ones. */
  lemma {:induction false} UnionSpec<T(!new)>(s: seq<T>, xs: seq<T>, lt: (T, T) -> bool)
    requires IsStrictTotalOrder(lt)
    requires Increasing(s, lt)
    ensures Increasing(Union(s, xs, lt), lt)
    ensures forall y :: y in Union(s, xs, lt) <==> y in s || y in xs
  {
    if xs != [] {
      var init := xs[..|xs| - 1];
      UnionSpec(s, init, lt);
      InsertSpec(Union(s, init, lt), xs[|xs| - 1], lt);
      assert xs == init + [xs[|xs| - 1]];
    }
  }

  /** `SortedSet(xs)` is ascending and holds exactly the elements of `xs`. */
  lemma FromListSpec<T(!new)>(xs: seq<T>, lt: (T, T) -> bool)
    requires IsStrictTotalOrder(lt)
    ensures Increasing(FromList(xs, lt), lt)
    ensures forall y :: y in FromList(xs, lt) <==> y in xs
  {
    UnionSpec([], xs, lt);
  }

  /** Building a SortedSet from a list that is already ascending and duplicate-free
      gives that list back, in the same order. */
  lemma FromListOfIncreasing<T(!new)>(s: seq<T>, lt: (T, T) -> bool)
    requires IsStrictTotalOrder(lt)
    requires Increasing(s, lt)
    ensures FromList(s, lt) == s
  {
    FromListSpec(s, lt);
    Unique(FromList(s, lt), s, lt);
  }

  /** Repeating an `update` with the same elements changes nothing. */
  lemma UnionIdempotent<T(!new)>(s: seq<T>, xs: seq<T>, lt: (T, T) -> bool)
    requires IsStrictTotalOrder(lt)
    requires Increasing(s, lt)
    ensures Union(Union(s, xs, lt), xs, lt) == Union(s, xs, lt)
  {
    UnionSpec(s, xs, lt);
    UnionSpec(Union(s, xs, lt), xs, lt);
    Unique(Union(Union(s, xs, lt), xs, lt), Union(s, xs, lt), lt);
  }
}

=== FILE: store.dfy ===
/** Where records live and how they are found: the record files under the transformations
    directory, the default record made from a station's raw series when it has none, and the
    station id the ERA5 files are named after. The file system is a map from path to content:
    record documents in `files`, the time index of each raw series in `raw`. */
module Store {
  import opened Outcomes
  import opened Text
  import opened Instants
  import opened Transformations
  import opened Documents

  type Files = map<string, Json>
  type RawSeries = map<string, seq<Instant>>

  /** The raw series file of a key. */
  function RawPath(rawDir: string, key: string): string
  {
    rawDir + "/" + key + ".parquet"
  }

  /** The default file of `dump_trans`: only the provider is lower-cased. */
  function DumpPath(transDir: string, rec: Record): (path: string)
    ensures NamesFile(path, transDir, Lower(rec.provider) + "-" + rec.providerId + "-" + rec.sensor, ".json")
  {
    TransPath(transDir, Lower(rec.provider) + "-" + rec.providerId + "-" + rec.sensor)
  }

  /** `load_trans_from_path`: the stored document, validated. */
  function LoadTransFromPath(files: Files, path: string): (r: Result<Record>)
    ensures path !in files ==> r == Err(FileNotFound(path))
    ensures path in files ==> r == Decode(files[path])
    ensures r.Ok? ==> ValidRecord(r.value)
  {
    if path in files then Decode(files[path]) else Err(FileNotFound(path))
  }

  /** `dump_trans`: the record's round-trip document, written to the given path or else to
      the default one. */
  function DumpTrans(files: Files, transDir: string, rec: Record, path: Option<string>): (r: Files)
    ensures var target := if path.Some? then path.value else DumpPath(transDir, rec);
            target in r && r[target] == Encode(rec)
            && forall p :: p != target ==> (p in r <==> p in files) && (p in files ==> r[p] == files[p])
  {
    var target := if path.Some? then path.value else DumpPath(transDir, rec);
    files[target := Encode(rec)]
  }

  /** The record made when a key has no file: the key must split on "-" into exactly three
      parts, the series must have a first and a last instant, which become the window; every
      other field takes its default. The raw series is read before the key is split. */
  function DefaultRecord(raw: RawSeries, rawDir: string, key: string): (r: Result<Record>)
    ensures RawPath(rawDir, key) !in raw ==> r == Err(FileNotFound(RawPath(rawDir, key)))
    ensures RawPath(rawDir, key) in raw && Count(key, '-') != 2 ==> r == Err(MalformedKey(Count(key, '-') + 1))
    ensures RawPath(rawDir, key) in raw && Count(key, '-') == 2 && raw[RawPath(rawDir, key)] == [] ==> r == Err(EmptyRecord)
    ensures r.Ok? ==> ValidRecord(r.value) && Key(r.value) == key
    ensures r.Ok? ==> var index := raw[RawPath(rawDir, key)];
      && r.value.start == index[0] && r.value.end == index[|index| - 1]
      && r.value.notes == "" && r.value.skip && r.value.wip
      && r.value.dateRanges == [] && r.value.timestamps == [] && r.value.tsunamis == []
  {
    var rawPath := RawPath(rawDir, key);
    if rawPath !in raw then Err(FileNotFound(rawPath))
    else
      var index := raw[rawPath];
      var parts := Split(key, '-');
      if |parts| != 3 then Err(MalformedKey(|parts|))
      else if index == [] then Err(EmptyRecord)
      else
        NormalizeUtcStamp(index[0]);
        NormalizeUtcStamp(index[|index| - 1]);
        KeyOfParts(key);
        Build(Fields(parts[0], parts[1], parts[2], None, None, None,
                     UtcStamp(index[0]), UtcStamp(index[|index| - 1]), None, None, None))
  }

  /** A key with two hyphens is its three parts joined again. */
  lemma KeyOfParts(key: string)
    requires Count(key, '-') == 2
    ensures var parts := Split(key, '-'); parts[0] + "-" + parts[1] + "-" + parts[2] == key
  {
    var parts := Split(key, '-');
    JoinSplit(key, '-');
    var tail := parts[1..];
    assert |tail| == 2 && tail[0] == parts[1] && tail[1..] == [parts[2]];
    assert Join(tail[1..], '-') == parts[2];
    assert Join(tail, '-') == parts[1] + ['-'] + parts[2];
    assert key == parts[0] + ['-'] + (parts[1] + ['-'] + parts[2]);
  }

  /** `load_trans`: the stored record when its file exists; otherwise the default record.
      Only a missing file falls back: a file that does not validate is an error. */
  function LoadTrans(files: Files, raw: RawSeries, transDir: string, rawDir: string, key: string): (r: Result<Record>)
    ensures TransPath(transDir, key) in files ==> r == Decode(files[TransPath(transDir, key)])
    ensures TransPath(transDir, key) !in files ==> r == DefaultRecord(raw, rawDir, key)
    ensures r.Ok? ==> ValidRecord(r.value)
  {
    var path := TransPath(transDir, key);
    if path in files then LoadTransFromPath(files, path) else DefaultRecord(raw, rawDir, key)
  }

  /** What is dumped to a path loads back from that path as the same record. */
  lemma DumpThenLoad(files: Files, transDir: string, rec: Record, path: string)
    requires ValidRecord(rec)
    ensures LoadTransFromPath(DumpTrans(files, transDir, rec, Some(path)), path) == Ok(rec)
    ensures LoadTransFromPath(DumpTrans(files, transDir, rec, None), DumpPath(transDir, rec)) == Ok(rec)
  {
    RoundTrip(rec);
  }

  /** A record whose provider is lower case, dumped to the default path, is what `load_trans`
      of its key returns, whatever the raw series hold. */
  lemma DumpThenLoadByKey(files: Files, raw: RawSeries, transDir: string, rawDir: string, rec: Record)
    requires ValidRecord(rec)
    requires IsLowerCase(rec.provider)
    ensures LoadTrans(DumpTrans(files, transDir, rec, None), raw, transDir, rawDir, Key(rec)) == Ok(rec)
  {
    LowerFixpoint(rec.provider);
    assert DumpPath(transDir, rec) == TransPath(transDir, Key(rec));
    RoundTrip(rec);
  }

  /** With a provider that is not lower case, the default dump path is a different path
      string from the one `load_trans` of the record's key opens. */
  lemma DumpMissesKeyPath(transDir: string, rec: Record)
    requires !IsLowerCase(rec.provider)
    ensures DumpPath(transDir, rec) != TransPath(transDir, Key(rec))
  {
    LowerFixpoint(rec.provider);
    var path := DumpPath(transDir, rec);
    var lowered := Lower(rec.provider) + "-" + rec.providerId + "-" + rec.sensor;
    assert lowered[..|rec.provider|] == Lower(rec.provider);
    assert Key(rec)[..|rec.provider|] == rec.provider;
    if path == TransPath(transDir, Key(rec)) {
      StemOfPath(path, transDir, lowered, Key(rec), ".json");
    }
  }

  /** The computed `path` and the default dump path agree exactly when the provider is
      already lower case. */
  lemma PathVersusDumpPath(t: Transformation, transDir: string)
    ensures t.Path(transDir) == DumpPath(transDir, t.Value()) <==> IsLowerCase(t.provider)
  {
    var rec := t.Value();
    assert t.Path(transDir) == TransPath(transDir, Key(rec));
    if !IsLowerCase(t.provider) {
      DumpMissesKeyPath(transDir, rec);
    } else {
      LowerFixpoint(t.provider);
    }
  }

  /** With no file for the key `provider-provider_id-sensor` (parts without hyphens) and a
      non-empty raw series, `load_trans` gives the default record of that station. */
  lemma DefaultForStation(files: Files, raw: RawSeries, transDir: string, rawDir: string,
                          provider: string, providerId: string, sensor: string)
    requires '-' !in provider && '-' !in providerId && '-' !in sensor
    requires var key := provider + "-" + providerId + "-" + sensor;
             TransPath(transDir, key) !in files && RawPath(rawDir, key) in raw && raw[RawPath(rawDir, key)] != []
    ensures var key := provider + "-" + providerId + "-" + sensor;
            var index := raw[RawPath(rawDir, key)];
            LoadTrans(files, raw, transDir, rawDir, key)
              == Ok(Record(provider, providerId, sensor, "", true, true, index[0], index[|index| - 1], [], [], []))
  {
    StationDefault(raw, rawDir, provider, providerId, sensor);
  }

  /** The default record of a station key whose raw series is there and not empty. */
  lemma StationDefault(raw: RawSeries, rawDir: string, provider: string, providerId: string, sensor: string)
    requires '-' !in provider && '-' !in providerId && '-' !in sensor
    requires var key := provider + "-" + providerId + "-" + sensor;
             RawPath(rawDir, key) in raw && raw[RawPath(rawDir, key)] != []
    ensures var key := provider + "-" + providerId + "-" + sensor;
            var index := raw[RawPath(rawDir, key)];
            DefaultRecord(raw, rawDir, key)
              == Ok(Record(provider, providerId, sensor, "", true, true, index[0], index[|index| - 1], [], [], []))
  {
    var key := provider + "-" + providerId + "-" + sensor;
    assert Join([provider, providerId, sensor], '-') == key by {
      assert Join([providerId, sensor], '-') == providerId + "-" + sensor by {
        assert [providerId, sensor][1..] == [sensor];
      }
      assert [provider, providerId, sensor][1..] == [providerId, sensor];
    }
    SplitJoin([provider, providerId, sensor], '-');
  }

  /** A key whose parts hold a hyphen of their own does not split into three: no default
      record is made for it. */
  lemma HyphenInPartRejected(raw: RawSeries, rawDir: string, provider: string, providerId: string, sensor: string)
    requires '-' in sensor
    requires RawPath(rawDir, provider + "-" + providerId + "-" + sensor) in raw
    ensures DefaultRecord(raw, rawDir, provider + "-" + providerId + "-" + sensor).Err?
  {
    var key := provider + "-" + providerId + "-" + sensor;
    CountConcat(provider + "-" + providerId + "-", sensor, '-');
    CountConcat(provider + "-" + providerId, "-", '-');
    CountConcat(provider + "-", providerId, '-');
    CountConcat(provider, "-", '-');
    assert Count("-", '-') == 1;
  }

  /** The station id of the ERA5 files: a key with exactly two hyphens loses its last part
      (the sensor); any other key is used as it is. */
  function Era5Id(key: string): (id: string)
    ensures Count(key, '-') != 2 ==> id == key
    ensures Count(key, '-') == 2 ==> |id| < |key| && key[..|id|] == id && key[|id|] == '-' && '-' !in key[|id| + 1..]
  {
    if Count(key, '-') == 2 then RSplitHead(key, '-') else key
  }

  /** The ERA5 file of a station: `{era5_dir}/{era5_id}.parquet`. */
  function Era5Path(era5Dir: string, key: string): (path: string)
    ensures NamesFile(path, era5Dir, Era5Id(key), ".parquet")
  {
    era5Dir + "/" + Era5Id(key) + ".parquet"
  }

  /** The ERA5 id of `provider-provider_id-sensor` is `provider-provider_id`. */
  lemma Era5IdOfStation(provider: string, providerId: string, sensor: string)
    requires '-' !in provider && '-' !in providerId && '-' !in sensor
    ensures Era5Id(provider + "-" + providerId + "-" + sensor) == provider + "-" + providerId
  {
    var key := provider + "-" + providerId + "-" + sensor;
    CountConcat(provider + "-" + providerId + "-", sensor, '-');
    CountConcat(provider + "-" + providerId, "-", '-');
    CountConcat(provider + "-", providerId, '-');
    CountConcat(provider, "-", '-');
    assert Count("-", '-') == 1;
    assert key == (provider + "-" + providerId) + ['-'] + sensor;
    RSplitHeadOf(provider + "-" + providerId, sensor, '-');
  }

  /** The key `transform` looks a record up by when it is given none: the station attributes
      joined by "-", all lower-cased. */
  function AttrsKey(provider: string, providerId: string, sensor: string): (key: string)
    ensures IsLowerCase(key)
    ensures key == Lower(provider) + "-" + Lower(providerId) + "-" + Lower(sensor)
  {
    LowerIdempotent(provider + "-" + providerId + "-" + sensor);
    LowerConcat(provider + "-" + providerId + "-", sensor);
    LowerConcat(provider + "-" + providerId, "-");
    LowerConcat(provider + "-", providerId);
    LowerConcat(provider, "-");
    assert Lower("-") == "-";
    Lower(provider + "-" + providerId + "-" + sensor)
  }

  /** The lower-cased lookup of `transform` finds what `dump_trans` wrote to its default path
      whenever the provider id and the sensor are lower case, whatever the provider's case. */
  lemma AttrsKeyFindsDump(files: Files, raw: RawSeries, transDir: string, rawDir: string, rec: Record)
    requires ValidRecord(rec)
    requires IsLowerCase(rec.providerId) && IsLowerCase(rec.sensor)
    ensures LoadTrans(DumpTrans(files, transDir, rec, None), raw, transDir, rawDir,
                      AttrsKey(rec.provider, rec.providerId, rec.sensor)) == Ok(rec)
  {
    LowerFixpoint(rec.providerId);
    LowerFixpoint(rec.sensor);
    assert AttrsKey(rec.provider, rec.providerId, rec.sensor) == Lower(rec.provider) + "-" + rec.providerId + "-" + rec.sensor;
    RoundTrip(rec);
  }
}

=== FILE: text.dfy ===
/** The few string operations the station keys and storage paths are built from:
    Python's `str.lower`, `str.count`, `str.split` and `str.rsplit(sep, 1)`. */
module Text {

  /** `c in 'A'..'Z'`: the characters `str.lower` changes in this model. */
  predicate IsUpper(c: char) { 'A' <= c <= 'Z' }

  function LowerChar(c: char): char
  {
    if IsUpper(c) then (c as int + 32) as char else c
  }

  /** `s.lower()`, for ASCII letters. */
  function Lower(s: string): (r: string)
    ensures |r| == |s|
  {
    seq(|s|, i requires 0 <= i < |s| => LowerChar(s[i]))
  }

  predicate IsLowerCase(s: string)
  {
    forall i :: 0 <= i < |s| ==> !IsUpper(s[i])
  }

  /** Lower-casing changes a string exactly when it holds an upper-case letter. */
  lemma LowerFixpoint(s: string)
    ensures Lower(s) == s <==> IsLowerCase(s)
  {
    if Lower(s) == s {
      forall i | 0 <= i < |s| ensures !IsUpper(s[i]) {
        assert Lower(s)[i] == LowerChar(s[i]);
      }
    }
    if IsLowerCase(s) {
      assert forall i :: 0 <= i < |s| ==> Lower(s)[i] == s[i];
    }
  }

  /** Lower-casing twice is lower-casing once, and the result has no upper-case letter. */
  lemma LowerIdempotent(s: string)
    ensures IsLowerCase(Lower(s))
    ensures Lower(Lower(s)) == Lower(s)
  {
    LowerFixpoint(Lower(s));
  }

  /** Lower-casing works character by character, so it distributes over concatenation. */
  lemma LowerConcat(a: string, b: string)
    ensures Lower(a + b) == Lower(a) + Lower(b)
  {
    assert forall i :: 0 <= i < |a + b| ==> Lower(a + b)[i] == (Lower(a) + Lower(b))[i];
  }

  /** `s.count(c)` for a one-character needle. */
  function Count(s: string, c: char): (n: nat)
    ensures n <= |s|
    ensures n == 0 <==> c !in s
  {
    if s == [] then 0 else (if s[0] == c then 1 else 0) + Count(s[1..], c)
  }

  lemma {:induction false} CountConcat(a: string, b: string, c: char)
    ensures Count(a + b, c) == Count(a, c) + Count(b, c)
  {
    if a == [] {
      assert a + b == b;
    } else {
      assert (a + b)[1..] == a[1..] + b;
      CountConcat(a[1..], b, c);
    }
  }

  /** `s.split(sep)`: the pieces between the separators, never fewer than one. */
  function Split(s: string, sep: char): (parts: seq<string>)
    ensures |parts| == Count(s, sep) + 1
    ensures forall i :: 0 <= i < |parts| ==> sep !in parts[i]
  {
    if s == [] then [""]
    else
      var rest := Split(s[1..], sep);
      if s[0] == sep then [""] + rest
      else [[s[0]] + rest[0]] + rest[1..]
  }

  /** `sep.join(parts)`. */
  function Join(parts: seq<string>, sep: char): string
  {
    if |parts| == 0 then ""
    else if |parts| == 1 then parts[0]
    else parts[0] + [sep] + Join(parts[1..], sep)
  }

  /** Gluing a character to the front of the first piece glues it to the front of the join. */
  lemma JoinConsChar(c: char, parts: seq<string>, sep: char)
    requires |parts| >= 1
    ensures Join([[c] + parts[0]] + parts[1..], sep) == [c] + Join(parts, sep)
  {
    var glued := [[c] + parts[0]] + parts[1..];
    if |parts| > 1 {
      assert glued[1..] == parts[1..];
    }
  }

  /** Splitting loses nothing: joining the pieces gives the string back. */
  lemma {:induction false} JoinSplit(s: string, sep: char)
    ensures Join(Split(s, sep), sep) == s
  {
    if s != [] {
      var rest := Split(s[1..], sep);
      JoinSplit(s[1..], sep);
      if s[0] != sep {
        JoinConsChar(s[0], rest, sep);
      } else {
        assert ([""] + rest)[1..] == rest;
      }
      assert s == [s[0]] + s[1..];
    }
  }

  /** A piece free of the separator splits into itself. */
  lemma {:induction false} SplitPiece(a: string, sep: char)
    requires sep !in a
    ensures Split(a, sep) == [a]
  {
    if a != [] {
      assert sep !in a[1..];
      SplitPiece(a[1..], sep);
      assert [a[0]] + a[1..] == a;
    }
  }

  /** A leading separator-free piece followed by the separator splits off as one piece. */
  lemma {:induction false} SplitCons(a: string, t: string, sep: char)
    requires sep !in a
    ensures Split(a + [sep] + t, sep) == [a] + Split(t, sep)
  {
    if a == [] {
      assert a + [sep] + t == [sep] + t;
      assert ([sep] + t)[1..] == t;
    } else {
      assert (a + [sep] + t)[1..] == a[1..] + [sep] + t;
      assert sep !in a[1..];
      SplitCons(a[1..], t, sep);
      assert [a[0]] + a[1..] == a;
    }
  }

  /** Joining separator-free pieces and splitting again gives the pieces back. */
  lemma {:induction false} SplitJoin(parts: seq<string>, sep: char)
    requires |parts| >= 1
    requires forall i :: 0 <= i < |parts| ==> sep !in parts[i]
    ensures Split(Join(parts, sep), sep) == parts
  {
    if |parts| == 1 {
      SplitPiece(parts[0], sep);
    } else {
      SplitJoin(parts[1..], sep);
      SplitCons(parts[0], Join(parts[1..], sep), sep);
      assert [parts[0]] + parts[1..] == parts;
    }
  }

  /** `s.rsplit(sep, 1)[0]`: everything before the last `sep`, or `s` itself when there is none. */
  function RSplitHead(s: string, sep: char): (r: string)
    ensures sep !in s ==> r == s
    ensures sep in s ==> |r| < |s| && s[..|r|] == r && s[|r|] == sep && sep !in s[|r| + 1..]
  {
    if sep !in s then s
    else if s[|s| - 1] == sep then s[..|s| - 1]
    else
      var init := s[..|s| - 1];
      assert s == init + [s[|s| - 1]];
      assert sep in init;
      var r := RSplitHead(init, sep);
      assert init[|r| + 1..] + [s[|s| - 1]] == s[|r| + 1..];
      r
  }

  /** Whatever precedes the last separator is the head of `rsplit(sep, 1)`. */
  lemma RSplitHeadOf(a: string, b: string, sep: char)
    requires sep !in b
    ensures RSplitHead(a + [sep] + b, sep) == a
  {
    var s := a + [sep] + b;
    assert s[|a|] == sep;
    assert s[..|a|] == a;
  }

  /** `path` is the file `dir/stem` followed by the extension `ext`: each part can be read
      back from the path at its place. */
  predicate NamesFile(path: string, dir: string, stem: string, ext: string)
  {
    && |path| == |dir| + 1 + |stem| + |ext|
    && path[..|dir|] == dir && path[|dir|] == '/'
    && path[|dir| + 1..|dir| + 1 + |stem|] == stem
    && path[|dir| + 1 + |stem|..] == ext
  }

  /** A path names one file only: in a given directory and with a given extension, the stem
      is fixed by the path. */
  lemma StemOfPath(path: string, dir: string, a: string, b: string, ext: string)
    requires NamesFile(path, dir, a, ext) && NamesFile(path, dir, b, ext)
    ensures a == b
  {
    assert |a| == |b|;
  }
}

=== FILE: transformations.dfy ===
/** `Transformation`: the annotation record of one station and sensor. Its scalar fields are
    frozen; only its three sorted collections change, through the three `add_*` mutators,
    each of which validates before it inserts. */
module Transformations {
  import opened Outcomes
  import opened Instants
  import opened DateRanges
  import opened SortedSets
  import opened Text

  /** The value of a record: what it holds, field by field. */
  datatype Record = Record(
    provider: string,
    providerId: string,
    sensor: string,
    notes: string,
    skip: bool,
    wip: bool,
    start: Instant,
    end: Instant,
    dateRanges: seq<DateRange>,
    timestamps: seq<Instant>,
    tsunamis: seq<DateRange>)

  /** What every validated record satisfies: the three collections are ascending and free of
      duplicates, and every range in them has its start before its end. The validity window
      `start`/`end` itself is not checked. */
  ghost predicate ValidRecord(rec: Record)
  {
    && Increasing(rec.dateRanges, Less)
    && Increasing(rec.timestamps, Before)
    && Increasing(rec.tsunamis, Less)
    && (forall r :: r in rec.dateRanges ==> IsValid(r))
    && (forall r :: r in rec.tsunamis ==> IsValid(r))
  }

  /** `provider-provider_id-sensor`, the key that names a station's sensor. */
  function Key(rec: Record): string
  {
    rec.provider + "-" + rec.providerId + "-" + rec.sensor
  }

  /** The record file of a key, `{trans_dir}/{key}.json`: the key is the file's name as given. */
  function TransPath(transDir: string, key: string): (path: string)
    ensures NamesFile(path, transDir, key, ".json")
  {
    transDir + "/" + key + ".json"
  }

  /** Two keys share a record file only when they are the same key. */
  lemma TransPathInjective(transDir: string, a: string, b: string)
    ensures TransPath(transDir, a) == TransPath(transDir, b) <==> a == b
  {
    if TransPath(transDir, a) == TransPath(transDir, b) {
      StemOfPath(TransPath(transDir, a), transDir, a, b, ".json");
    }
  }

  /** A range as it is handed to validation: two values still to be normalised. */
  datatype RangeInput = RangeInput(start: TimeInput, end: TimeInput)

  /** The keyword arguments of the constructor; an absent optional field is `None`. */
  datatype Fields = Fields(
    provider: string,
    providerId: string,
    sensor: string,
    notes: Option<string>,
    skip: Option<bool>,
    wip: Option<bool>,
    start: TimeInput,
    end: TimeInput,
    dateRanges: Option<seq<RangeInput>>,
    timestamps: Option<seq<TimeInput>>,
    tsunamis: Option<seq<RangeInput>>)

  /** Every value of a `UTC` iterable normalised, or the failure of the first one that is not. */
  function ValidateInstants(xs: seq<TimeInput>): (r: Result<seq<Instant>>)
    ensures r.Ok? ==> |r.value| == |xs| && forall i :: 0 <= i < |xs| ==> Normalize(xs[i]) == Ok(r.value[i])
    ensures r.Err? <==> exists i :: 0 <= i < |xs| && Normalize(xs[i]).Err?
    ensures r.Err? ==> r.error == InvalidTimestamp
  {
    if xs == [] then Ok([])
    else
      var init :- ValidateInstants(xs[..|xs| - 1]);
      var last :- Normalize(xs[|xs| - 1]);
      Ok(init + [last])
  }

  /** Every range input validated, or the failure of the first one that is not valid. */
  function ValidateRanges(xs: seq<RangeInput>): (r: Result<seq<DateRange>>)
    ensures r.Ok? ==> |r.value| == |xs| && forall i :: 0 <= i < |xs| ==> Validate(xs[i].start, xs[i].end) == Ok(r.value[i])
    ensures r.Err? <==> exists i :: 0 <= i < |xs| && Validate(xs[i].start, xs[i].end).Err?
  {
    if xs == [] then Ok([])
    else
      var init :- ValidateRanges(xs[..|xs| - 1]);
      var last :- Validate(xs[|xs| - 1].start, xs[|xs| - 1].end);
      Ok(init + [last])
  }

  /** A collection field: absent means empty; otherwise the sorted set of its validated elements. */
  function RangeSet(xs: Option<seq<RangeInput>>): Result<seq<DateRange>>
  {
    match xs
    case None => Ok([])
    case Some(items) =>
      var ranges :- ValidateRanges(items);
      Ok(FromList(ranges, Less))
  }

  function InstantSet(xs: Option<seq<TimeInput>>): Result<seq<Instant>>
  {
    match xs
    case None => Ok([])
    case Some(items) =>
      var instants :- ValidateInstants(items);
      Ok(FromList(instants, Before))
  }

  function GetOr<T>(o: Option<T>, default: T): T
  {
    match o
    case None => default
    case Some(v) => v
  }

  /** Construction: every field validated, the defaults filled in (`notes=""`, `skip=True`,
      `wip=True`, empty collections), the collections turned into sorted sets. */
  function Build(f: Fields): (r: Result<Record>)
    ensures r.Ok? ==> ValidRecord(r.value)
    ensures r.Ok? <==>
      && Normalize(f.start).Ok? && Normalize(f.end).Ok?
      && RangeSet(f.dateRanges).Ok? && InstantSet(f.timestamps).Ok? && RangeSet(f.tsunamis).Ok?
    ensures r.Ok? ==>
      && r.value.provider == f.provider && r.value.providerId == f.providerId && r.value.sensor == f.sensor
      && r.value.notes == GetOr(f.notes, "") && r.value.skip == GetOr(f.skip, true) && r.value.wip == GetOr(f.wip, true)
      && Ok(r.value.start) == Normalize(f.start) && Ok(r.value.end) == Normalize(f.end)
    ensures r.Ok? && f.timestamps.Some? ==>
      forall t :: t in r.value.timestamps <==> t in ValidateInstants(f.timestamps.value).value
    ensures r.Ok? && f.dateRanges.Some? ==>
      forall d :: d in r.value.dateRanges <==> d in ValidateRanges(f.dateRanges.value).value
    ensures r.Ok? && f.tsunamis.Some? ==>
      forall d :: d in r.value.tsunamis <==> d in ValidateRanges(f.tsunamis.value).value
    ensures r.Ok? && f.dateRanges.None? ==> r.value.dateRanges == []
    ensures r.Ok? && f.timestamps.None? ==> r.value.timestamps == []
    ensures r.Ok? && f.tsunamis.None? ==> r.value.tsunamis == []
  {
    var start :- Normalize(f.start);
    var end :- Normalize(f.end);
    var dateRanges :- RangeSet(f.dateRanges);
    var timestamps :- InstantSet(f.timestamps);
    var tsunamis :- RangeSet(f.tsunamis);
    LessIsStrictTotalOrder();
    BeforeIsStrictTotalOrder();
    RangeSetSpec(f.dateRanges);
    RangeSetSpec(f.tsunamis);
    InstantSetSpec(f.timestamps);
    Ok(Record(f.provider, f.providerId, f.sensor, GetOr(f.notes, ""), GetOr(f.skip, true), GetOr(f.wip, true),
              start, end, dateRanges, timestamps, tsunamis))
  }

  lemma RangeSetSpec(xs: Option<seq<RangeInput>>)
    requires RangeSet(xs).Ok?
    ensures Increasing(RangeSet(xs).value, Less)
    ensures forall d :: d in RangeSet(xs).value ==> IsValid(d)
    ensures xs.Some? ==> forall d :: d in RangeSet(xs).value <==> d in ValidateRanges(xs.value).value
  {
    if xs.Some? {
      LessIsStrictTotalOrder();
      var ranges := ValidateRanges(xs.value).value;
      FromListSpec(ranges, Less);
      forall d | d in ranges ensures IsValid(d) {
        var i :| 0 <= i < |ranges| && ranges[i] == d;
        assert Validate(xs.value[i].start, xs.value[i].end) == Ok(d);
      }
    }
  }

  lemma InstantSetSpec(xs: Option<seq<TimeInput>>)
    requires InstantSet(xs).Ok?
    ensures Increasing(InstantSet(xs).value, Before)
    ensures xs.Some? ==> forall t :: t in InstantSet(xs).value <==> t in ValidateInstants(xs.value).value
  {
    if xs.Some? {
      BeforeIsStrictTotalOrder();
      FromListSpec(ValidateInstants(xs.value).value, Before);
    }
  }

  /** Empty collections given as lists, tuples or sets, or not given at all, give empty sorted
      sets, and the optional scalars take their defaults. */
  lemma EmptyCollections(provider: string, providerId: string, sensor: string, start: TimeInput, end: TimeInput)
    requires Normalize(start).Ok? && Normalize(end).Ok?
    ensures var given := Build(Fields(provider, providerId, sensor, None, None, None, start, end, Some([]), Some([]), Some([])));
            var absent := Build(Fields(provider, providerId, sensor, None, None, None, start, end, None, None, None));
            && given == absent && given.Ok?
            && given.value.dateRanges == [] && given.value.timestamps == [] && given.value.tsunamis == []
            && given.value.notes == "" && given.value.skip && given.value.wip
  {
  }

  class Transformation {
    const provider: string
    const providerId: string
    const sensor: string
    const notes: string
    const skip: bool
    const wip: bool
    const start: Instant
    const end: Instant
    var dateRanges: seq<DateRange>
    var timestamps: seq<Instant>
    var tsunamis: seq<DateRange>

    function Value(): Record
      reads this
    {
      Record(provider, providerId, sensor, notes, skip, wip, start, end, dateRanges, timestamps, tsunamis)
    }

    ghost predicate Valid()
      reads this
    {
      ValidRecord(Value())
    }

    constructor (rec: Record)
      requires ValidRecord(rec)
      ensures Valid() && Value() == rec
    {
      provider, providerId, sensor := rec.provider, rec.providerId, rec.sensor;
      notes, skip, wip := rec.notes, rec.skip, rec.wip;
      start, end := rec.start, rec.end;
      dateRanges, timestamps, tsunamis := rec.dateRanges, rec.timestamps, rec.tsunamis;
    }

    /** `add_date_range`: validate the range, then add it to `date_ranges`. */
    method AddDateRange(start: TimeInput, end: TimeInput) returns (outcome: Outcome)
      requires Valid()
      modifies this`dateRanges
      ensures Valid()
      ensures var v := Validate(start, end);
        if v.Ok? then
          && outcome == Pass
          && dateRanges == Insert(old(dateRanges), v.value, Less)
          && (forall d :: d in dateRanges <==> d in old(dateRanges) || d == v.value)
          && |dateRanges| == if v.value in old(dateRanges) then |old(dateRanges)| else |old(dateRanges)| + 1
        else
          outcome == Fail(v.error) && dateRanges == old(dateRanges)
    {
      var v := Validate(start, end);
      if v.Err? {
        return Fail(v.error);
      }
      LessIsStrictTotalOrder();
      InsertSpec(dateRanges, v.value, Less);
      dateRanges := Insert(dateRanges, v.value, Less);
      outcome := Pass;
    }

    /** `add_timestamps`: validate every value first, then add them all to `timestamps`;
        one value that does not validate leaves `timestamps` as it was. */
    method AddTimestamps(values: seq<TimeInput>) returns (outcome: Outcome)
      requires Valid()
      modifies this`timestamps
      ensures Valid()
      ensures var v := ValidateInstants(values);
        if v.Ok? then
          && outcome == Pass
          && timestamps == Union(old(timestamps), v.value, Before)
          && (forall t :: t in timestamps <==> t in old(timestamps) || t in v.value)
        else
          outcome == Fail(InvalidTimestamp) && timestamps == old(timestamps)
    {
      var validated: seq<Instant> := [];
      for i := 0 to |values|
        invariant ValidateInstants(values[..i]) == Ok(validated)
      {
        var n := Normalize(values[i]);
        if n.Err? {
          assert Normalize(values[..i + 1][i]).Err?;
          ValidatePrefixFails(values, i + 1);
          return Fail(n.error);
        }
        assert values[..i + 1][..i] == values[..i];
        validated := validated + [n.value];
      }
      assert values[..|values|] == values;
      var added := timestamps;
      for i := 0 to |validated|
        invariant added == Union(timestamps, validated[..i], Before)
      {
        assert validated[..i + 1][..i] == validated[..i];
        added := Insert(added, validated[i], Before);
      }
      assert validated[..|validated|] == validated;
      BeforeIsStrictTotalOrder();
      UnionSpec(timestamps, validated, Before);
      timestamps := added;
      outcome := Pass;
    }

    /** `add_tsunami`: validate the range, then add it to `tsunamis`. */
    method AddTsunami(start: TimeInput, end: TimeInput) returns (outcome: Outcome)
      requires Valid()
      modifies this`tsunamis
      ensures Valid()
      ensures var v := Validate(start, end);
        if v.Ok? then
          && outcome == Pass
          && tsunamis == Insert(old(tsunamis), v.value, Less)
          && (forall d :: d in tsunamis <==> d in old(tsunamis) || d == v.value)
          && |tsunamis| == if v.value in old(tsunamis) then |old(tsunamis)| else |old(tsunamis)| + 1
        else
          outcome == Fail(v.error) && tsunamis == old(tsunamis)
    {
      var v := Validate(start, end);
      if v.Err? {
        return Fail(v.error);
      }
      LessIsStrictTotalOrder();
      InsertSpec(tsunamis, v.value, Less);
      tsunamis := Insert(tsunamis, v.value, Less);
      outcome := Pass;
    }

    /** The computed field `path`: the record's file under `transDir`, named after its key as is. */
    function Path(transDir: string): (p: string)
      reads this
      ensures NamesFile(p, transDir, provider + "-" + providerId + "-" + sensor, ".json")
    {
      TransPath(transDir, Key(Value()))
    }
  }

  /** When a prefix of the values already holds one that does not validate, so do all values. */
  lemma ValidatePrefixFails(xs: seq<TimeInput>, n: nat)
    requires n <= |xs|
    requires ValidateInstants(xs[..n]).Err?
    ensures ValidateInstants(xs).Err?
  {
    var i :| 0 <= i < n && Normalize(xs[..n][i]).Err?;
    assert xs[..n][i] == xs[i];
  }

  /** `Transformation(**fields)`: a new record object, or the validation failure. */
  method New(f: Fields) returns (r: Result<Transformation>)
    ensures r.Ok? <==> Build(f).Ok?
    ensures r.Ok? ==> fresh(r.value) && r.value.Valid() && r.value.Value() == Build(f).value
    ensures r.Err? ==> r.error == Build(f).error
  {
    var rec := Build(f);
    if rec.Err? {
      return Err(rec.error);
    }
    var t := new Transformation(rec.value);
    r := Ok(t);
  }
}
